=== FILE: README.md ===
# ChatApp view-model core in Dafny

A model of the decision logic of a small Android chat client. The app signs
users in and up against an authentication service, keeps user profiles, chats,
messages and statuses in a document database, and shows them in a few
screens. The model covers:

- the view model's state: progress flag, the one-shot popup notification, the
  profile, the chat list, the open chat's messages and the status list;
- every snapshot listener the view model registers;
- `handleException`, the single path on which errors are reported;
- login, sign-up, logout and profile writes;
- the add-chat decision and the chat it writes;
- the chat-list and message listeners, and the message ordering;
- the two-stage status feed with its 24-hour window;
- the split of statuses into "mine" and "others", and the de-duplicated
  author list on the status-list screen;
- the records and their defaults, and `UserData.toMap`;
- the one-shot `Event` wrapper;
- the navigation route templates and `createRoute`.

The backend is never called. Each operation takes as inputs the results the
backend delivered (`Remote<T>`: `Done(value)` or `Failed(exception)`;
`AuthResult` for the authentication service). It returns the state after all
of its callbacks have run, together with the document writes it issued
(`Step`). A snapshot listener is an entry in an append-only list inside the
state. Each snapshot it receives is a separate function (`OnChatListSnapshot`,
`OnChatMessagesSnapshot`, `OnStatusChatsSnapshot`, `OnStatusSnapshot`,
`OnProfileSnapshot`). That function may be applied for any registered
listener, because the code never unregisters one.

Kotlin nullables are `Kotlin.Option`. A nullable string interpolated into a
template renders as `null` (`Kotlin.Show`). `mapNotNull { toObject }` is
`Kotlin.Somes` over a sequence of already-mapped documents, where `None`
stands for a document that does not map.

The code cancels no listener and checks no callback for staleness:

- Logout clears only the sign-in flag, the profile and the chat list. It
  cancels no listener.
- `depopulateChat` only drops the reference to the message listener. A late
  snapshot of that listener still fills the message list
  (`ChatSync.StaleSnapshotRepopulates`).
- Nothing prevents two message listeners from existing at once.
- Every chat snapshot of the status feed opens one more status query, and
  none is ever closed (`StatusFeed.StatusQueriesAccumulate`).
- The add-chat check and the chat write are not atomic. The model decides on
  the chat collection as the query delivered it.

## Model

| member | source | states |
|---|---|---|
| `Events.New` | app/src/main/java/com/example/chatapp/data/Event.kt:5-7 | a new event holds its content and has not been handled |
| `Events.GetContentOrNull` | app/src/main/java/com/example/chatapp/data/Event.kt:9-17 | reading returns the content exactly when the event was not yet handled; afterwards it is handled and its content is unchanged |
| `Events.ConsumeTimes` | app/src/main/java/com/example/chatapp/data/Event.kt:9-17 | after n reads, only the first can return the content, every later one returns null, and an event already handled returns null on every read |
| `Events.ContentReturnedExactlyOnce` | app/src/main/java/com/example/chatapp/data/Event.kt:5-17 | a fresh event read n ≥ 1 times yields its content exactly once, on the first read |
| `Kotlin.Somes` | app/src/main/java/com/example/chatapp/Hilt/CAViewModel.kt:307 | `mapNotNull` keeps exactly the values that mapped, each as often as it occurs and in the original order: the present entry at position i lands after the present entries before it |
| `Seqs.Filter` | app/src/main/java/com/example/chatapp/ui/Screen/StatusListScreen.kt:49-50 | `filter` keeps exactly the elements satisfying the predicate, in their original relative order |
| `Seqs.FilterPartition` | app/src/main/java/com/example/chatapp/ui/Screen/StatusListScreen.kt:49-50 | filtering by a predicate and by its negation together keep every element exactly as often as the input holds it |
| `Seqs.FirstIndex` | app/src/main/java/com/example/chatapp/ui/Screen/StatusListScreen.kt:109 | the position of the first occurrence: the element is there and nowhere before it |
| `Seqs.Dedup` | app/src/main/java/com/example/chatapp/ui/Screen/StatusListScreen.kt:109 | `toSet().toList()` keeps every element and lists none twice |
| `Seqs.DedupKeepsFirstOccurrenceOrder` | app/src/main/java/com/example/chatapp/ui/Screen/StatusListScreen.kt:109 | `toSet().toList()` lists the distinct elements in the order of their first occurrence |
| `DataTypes.NewUserData` | app/src/main/java/com/example/chatapp/data/DataTypes.kt:4-11 | a profile built from id, name, number and image has status "", statusImg " " and an empty contact list |
| `DataTypes.DefaultChatParticipants` | app/src/main/java/com/example/chatapp/data/DataTypes.kt:4-49 | the declared defaults: a default chat's two participants are equal, with an empty id and single-blank fields; a default status has no timestamp; a default message has the empty text in every field |
| `DataTypes.ToMap` | app/src/main/java/com/example/chatapp/data/DataTypes.kt:13-21 | `toMap` has exactly the seven profile keys, and only "contacts" holds a list |
| `DataTypes.ToMapRoundTrip` | app/src/main/java/com/example/chatapp/data/DataTypes.kt:13-21 | reading the map back by field name gives the same profile |
| `DataTypes.ApplyUpdate` | app/src/main/java/com/example/chatapp/Hilt/CAViewModel.kt:176 | a partial update overwrites every text field the map names, keeps every field it does not name, and takes the contacts from the map exactly when the map holds a list under that key |
| `DataTypes.UpdateWithToMapStoresRecord` | app/src/main/java/com/example/chatapp/Hilt/CAViewModel.kt:174-187 | an update with the full map of a profile stores that profile, whatever was stored before |
| `Destinations.TemplateRendersRoute` | app/src/main/java/com/example/chatapp/Navigation/DestinationScreen.kt:3-15 | each declared route, read as a template with its `{name}` argument, renders back to the same string, leading blank included |
| `Destinations.RoutesDistinct` | app/src/main/java/com/example/chatapp/Navigation/DestinationScreen.kt:3-15 | the seven declared routes are pairwise distinct |
| `Destinations.SingleChatRouteInjective` | app/src/main/java/com/example/chatapp/Navigation/DestinationScreen.kt:9 | two chat routes are equal if and only if their chat ids are |
| `Destinations.SingleStatusRouteInjective` | app/src/main/java/com/example/chatapp/Navigation/DestinationScreen.kt:13 | two status routes are equal if and only if the rendered user ids are, and for two non-null ids if and only if the ids are |
| `Destinations.SingleStatusRouteNullCollision` | app/src/main/java/com/example/chatapp/Navigation/DestinationScreen.kt:13 | a null user id and the id "null" give the same status route |
| `Destinations.ChatRouteIsNeverStatusRoute` | app/src/main/java/com/example/chatapp/Navigation/DestinationScreen.kt:9-13 | no chat route equals any status route |
| `Destinations.SingleChatRouteNeverMatches` | app/src/main/java/com/example/chatapp/Navigation/DestinationScreen.kt:8-9 | as written, a chat route never matches the chat destination's own template |
| `Destinations.SingleStatusRouteNeverMatches` | app/src/main/java/com/example/chatapp/Navigation/DestinationScreen.kt:12-13 | as written, a status route never matches the status destination's own template |
| `Destinations.CorrectedTemplateOf` | app/src/main/java/com/example/chatapp/Navigation/DestinationScreen.kt:3-15 | each corrected template is the declared one or the declared one without its leading blank, of the same kind |
| `Destinations.CorrectedSingleChatRouteRoundTrip` | app/src/main/java/com/example/chatapp/Navigation/DestinationScreen.kt:8-9 | with the blank removed, matching a chat route returns the chat id it was built from |
| `Destinations.CorrectedSingleStatusRouteRoundTrip` | app/src/main/java/com/example/chatapp/Navigation/DestinationScreen.kt:12-13 | with the blank removed, matching a status route returns the rendered user id it was built from |
| `MessageOrder.StrLeTotal` | app/src/main/java/com/example/chatapp/Hilt/CAViewModel.kt:336 | any two timestamp strings are comparable |
| `MessageOrder.StrLeAntisymmetric` | app/src/main/java/com/example/chatapp/Hilt/CAViewModel.kt:336 | two strings each ordered before the other are equal |
| `MessageOrder.StrLeTransitive` | app/src/main/java/com/example/chatapp/Hilt/CAViewModel.kt:336 | the string ordering is transitive |
| `MessageOrder.TimestampLeIsTotalOrder` | app/src/main/java/com/example/chatapp/Hilt/CAViewModel.kt:336 | `sortedBy { it.timestamp }` orders by a total order with null first |
| `MessageOrder.TiesConcat` | app/src/main/java/com/example/chatapp/Hilt/CAViewModel.kt:336 | the messages with a given timestamp in a concatenation are those of each part, in order |
| `MessageOrder.Insert` | app/src/main/java/com/example/chatapp/Hilt/CAViewModel.kt:336 | inserting into a sorted list keeps it sorted and adds exactly the one message |
| `MessageOrder.InsertKeepsTies` | app/src/main/java/com/example/chatapp/Hilt/CAViewModel.kt:336 | an inserted message lands after every message with the same timestamp |
| `MessageOrder.SortByTimestamp` | app/src/main/java/com/example/chatapp/Hilt/CAViewModel.kt:336 | the sorted list is ordered by timestamp and a permutation of the input |
| `MessageOrder.SortIsStable` | app/src/main/java/com/example/chatapp/Hilt/CAViewModel.kt:336 | the sort is stable: messages with equal timestamps keep their delivery order |
| `ViewModelState.ErrorMessage` | app/src/main/java/com/example/chatapp/Hilt/CAViewModel.kt:150-151 | the text is the error message alone for an empty custom message, otherwise the custom message, ": " and the error message; it is empty only when both are |
| `ViewModelState.DefaultMessageIsNeverEmpty` | app/src/main/java/com/example/chatapp/Hilt/CAViewModel.kt:147-151 | with the default custom message the text starts with " : " and is never empty |
| `ViewModelState.HandleException` | app/src/main/java/com/example/chatapp/Hilt/CAViewModel.kt:147-154 | reporting publishes a fresh event with the formatted text, clears the progress flag and changes nothing else |
| `ViewModelState.HandleExceptionTwice` | app/src/main/java/com/example/chatapp/Hilt/CAViewModel.kt:80-85 | the second report of a login failure leaves the same state as the first, when the notice is not read between the two callbacks |
| `ViewModelState.GetUserData` | app/src/main/java/com/example/chatapp/Hilt/CAViewModel.kt:122-125 | a profile listener is added for the uid, with the progress flag raised |
| `Session.Init` | app/src/main/java/com/example/chatapp/Hilt/CAViewModel.kt:56-63 | signed in exactly when a current user exists, whose profile listener is then the only one registered |
| `Session.OnLogin` | app/src/main/java/com/example/chatapp/Hilt/CAViewModel.kt:65-86 | an empty field is rejected with "Please fill in all fields : "; success signs in and listens to the uid's profile; failure reports "Login failed: " and the cause |
| `Session.LoginValidationShortCircuits` | app/src/main/java/com/example/chatapp/Hilt/CAViewModel.kt:66-69 | with an empty field the outcome does not depend on the authentication service |
| `Session.CreateOrUpdateProfile` | app/src/main/java/com/example/chatapp/Hilt/CAViewModel.kt:156-196 | one write exactly when a uid exists and the lookup succeeded; an update if and only if the document existed; supplied fields win over in-memory ones; status, statusImg and contacts get their defaults; failures are reported |
| `Session.ProfileWriteIndependentOfExistence` | app/src/main/java/com/example/chatapp/Hilt/CAViewModel.kt:174-187 | the update and the set store the same profile |
| `Session.UpdateProfileData` | app/src/main/java/com/example/chatapp/Hilt/CAViewModel.kt:197-199 | name and number are written, the image is kept, and the status argument is ignored while the stored status is reset to "" |
| `Session.OnSignUp` | app/src/main/java/com/example/chatapp/Hilt/CAViewModel.kt:90-118 | empty fields, a failed uniqueness query and a taken number are rejected with no write and their own message; the sign-in flag changes or a write happens only for a fresh number and a created account; the profile written carries the given name and number |
| `Session.SignUpShortCircuits` | app/src/main/java/com/example/chatapp/Hilt/CAViewModel.kt:90-116 | with an empty field, a failed uniqueness query or a taken number, the outcome does not depend on the account creation or the profile write |
| `Session.OnLogout` | app/src/main/java/com/example/chatapp/Hilt/CAViewModel.kt:137-144 | signed out with no profile and no chats, "Logged out" announced; every other part of the state, messages, statuses and listeners included, is left as it was |
| `Session.LogoutNoticeShownOnce` | app/src/main/java/com/example/chatapp/Hilt/CAViewModel.kt:141 | the logout notice is returned by the first read and not by the second |
| `Session.OnProfileSnapshot` | app/src/main/java/com/example/chatapp/Hilt/CAViewModel.kt:125-134 | a delivered document replaces the profile and adds a chat-list listener; an error is reported with "Cannot retrieve user data"; nothing but the profile, the chat-list listeners, the notice and the progress flag changes |
| `AddChat.FirstWithNumber` | app/src/main/java/com/example/chatapp/Hilt/CAViewModel.kt:254-257 | a partner is found if and only if some profile has the number, and it is the first such profile |
| `AddChat.Snapshot` | app/src/main/java/com/example/chatapp/Hilt/CAViewModel.kt:262-273 | a participant copies id, name, image and number of its profile |
| `AddChat.OnAddChat` | app/src/main/java/com/example/chatapp/Hilt/CAViewModel.kt:227-290 | invalid number, existing chat in either slot order and unknown number are each reported with their message and no write; exactly one chat is written if and only if none of these and no query failure occurred, holding both participants' snapshots; a failed chat or profile query is reported with " : " and its cause |
| `AddChat.AddChatValidationShortCircuits` | app/src/main/java/com/example/chatapp/Hilt/CAViewModel.kt:228-229 | an invalid number is rejected whatever the queries would return |
| `AddChat.SecondAddChatConflicts` | app/src/main/java/com/example/chatapp/Hilt/CAViewModel.kt:233-247 | after A adds B, B adding A finds the chat with the slots swapped, writes nothing and reports "Chat already exists: " |
| `ChatSync.PopulateChats` | app/src/main/java/com/example/chatapp/Hilt/CAViewModel.kt:293-302 | one more chat-list listener for the current user's id; nothing else changes |
| `ChatSync.OnChatListSnapshot` | app/src/main/java/com/example/chatapp/Hilt/CAViewModel.kt:302-309 | a delivered snapshot publishes exactly the documents that map to a chat, in snapshot order; an error is reported, and without one the notice is kept; nothing but the chat list, the notice and the progress flag changes, and without an error only the chat list |
| `ChatSync.PopulateChat` | app/src/main/java/com/example/chatapp/Hilt/CAViewModel.kt:325-330 | one more message listener, which becomes the referenced one; earlier ones stay and nothing else changes |
| `ChatSync.DepopulateChat` | app/src/main/java/com/example/chatapp/Hilt/CAViewModel.kt:340-344 | the message list is emptied and the reference dropped, while every listener stays registered |
| `ChatSync.ShapeMessages` | app/src/main/java/com/example/chatapp/Hilt/CAViewModel.kt:333-336 | the published messages are the mapped ones, sorted by timestamp, as a permutation, with equal timestamps in delivery order |
| `ChatSync.OnChatMessagesSnapshot` | app/src/main/java/com/example/chatapp/Hilt/CAViewModel.kt:330-338 | any registered listener's snapshot replaces the message list; listeners and the reference are unchanged; nothing but the messages, the notice and the progress flag changes, and without an error only the messages |
| `ChatSync.StaleSnapshotRepopulates` | app/src/main/java/com/example/chatapp/Hilt/CAViewModel.kt:325-344 | after leaving a chat, a late snapshot of its listener fills the message list again |
| `StatusFeed.Connections` | app/src/main/java/com/example/chatapp/Hilt/CAViewModel.kt:362-368 | the connections are the current user's id followed by one id per chat: user2's when user1 is the current user, user1's otherwise |
| `StatusFeed.ChatPartnersAreConnections` | app/src/main/java/com/example/chatapp/Hilt/CAViewModel.kt:362-368 | the current user and the partner in each of their chats, in either slot, are connections |
| `StatusFeed.ConnectionsComeFromChats` | app/src/main/java/com/example/chatapp/Hilt/CAViewModel.kt:362-368 | every connection is the current user or the partner of some chat |
| `StatusFeed.VisibleStatuses` | app/src/main/java/com/example/chatapp/Hilt/CAViewModel.kt:371-373 | a status is shown if and only if it has a timestamp after the cutoff and its author is a connection |
| `StatusFeed.StatusWindow` | app/src/main/java/com/example/chatapp/Hilt/CAViewModel.kt:349-350 | a connection's status from 23 hours ago is shown; ones from 25 hours ago and from exactly 24 hours ago are not |
| `StatusFeed.PopulateStatuses` | app/src/main/java/com/example/chatapp/Hilt/CAViewModel.kt:347-356 | the cutoff is now minus 86 400 000 ms, captured once by the new chat listener |
| `StatusFeed.OnStatusChatsSnapshot` | app/src/main/java/com/example/chatapp/Hilt/CAViewModel.kt:358-373 | a delivered chat snapshot adds one status query with the feed's cutoff and the connections of those chats, starting with the current user; existing queries are kept; an error is reported, and without one the notice is kept; nothing but the queries, the notice and the progress flag changes, and without an error only the queries |
| `StatusFeed.OnStatusSnapshot` | app/src/main/java/com/example/chatapp/Hilt/CAViewModel.kt:374-380 | any registered query's snapshot replaces the status list with the statuses that query admits; an error is reported, and without one the notice is kept; nothing else but the status list, the notice and the progress flag changes |
| `StatusFeed.StatusQueriesAccumulate` | app/src/main/java/com/example/chatapp/Hilt/CAViewModel.kt:371-380 | after two chat snapshots both queries are registered, and the older one can still overwrite the status list |
| `StatusListScreen.MyStatuses` | app/src/main/java/com/example/chatapp/ui/Screen/StatusListScreen.kt:49 | exactly the statuses whose author id is the current user's, in list order |
| `StatusListScreen.OtherStatuses` | app/src/main/java/com/example/chatapp/ui/Screen/StatusListScreen.kt:50 | exactly the statuses whose author id is not the current user's, in list order |
| `StatusListScreen.StatusesPartition` | app/src/main/java/com/example/chatapp/ui/Screen/StatusListScreen.kt:49-50 | the two lists together hold every status exactly as often as the list does, and each status is in exactly one |
| `StatusListScreen.UniqueUsers` | app/src/main/java/com/example/chatapp/ui/Screen/StatusListScreen.kt:109 | every author of another user's status, as a whole participant value, appears exactly once, and none has the current user's id |
| `StatusListScreen.UniqueUsersInFirstAppearanceOrder` | app/src/main/java/com/example/chatapp/ui/Screen/StatusListScreen.kt:109 | the authors are listed in the order of their first status |
| `StatusListScreen.MyStatusRow` | app/src/main/java/com/example/chatapp/ui/Screen/StatusListScreen.kt:94-97 | the "my status" row exists if and only if the current user has a status, and shows the author of the first one |
| `StatusListScreen.StatusRowRoutes` | app/src/main/java/com/example/chatapp/ui/Screen/StatusListScreen.kt:100-120 | the "my status" row requests the current user's status route string; no other user's row requests it, for non-null ids |

## Left out

- The backend SDK itself: authentication, document queries, snapshot listeners and storage are foreign calls. Their results are inputs, and a document that fails to map is `None`.
- The upload paths (`uploadImage`, `uploadProfileImage`, `uploadStatus`), `createStatus` and `onSendReply`: each wraps a storage upload or a database write around a clock reading or a random id, with no decision of its own.
- The clocks: the status cutoff takes `now` as a parameter. Message timestamps are inputs.
- `inProgressChats`, `inProgressChatMessages` and `inProgressStatus`: these spinner flags only drive the UI. Only `inProgress` is modelled.
- Concurrency: every operation runs its callbacks to completion before the next starts. The race between two add-chat calls that both see no chat is not modelled.
- Logging and stack traces in `handleException`.
- Compose UI, layout and navigation wiring, including the rest of the status-list screen.
- The database's limits and ordering: the size limit of `whereIn`, null semantics of its filters, and the order in which query results are delivered. The delivered order is an input.
- `isDigitsOnly` is modelled for ASCII digits only. Unicode digits of other scripts are not modelled.
- Strings compare by Dafny characters (code points). Kotlin compares UTF-16 units, and the two differ only beyond the Basic Multilingual Plane.
- 64-bit wrap-around of the `Long` status timestamps and cutoff is not modelled: integers are unbounded.
- Destinations.Match: a simplified matcher. It does not cut the route at '?' or '#' and does not percent-decode the argument, so the corrected round trips are stated only for ids without '/', '?', '#' or '%'.
- Destinations.SingleStatusRouteInjective: injective only on the rendered id, because a null id and the id "null" produce the same route.
- `populateStatuses` is private and has no caller among the shown files. It is modelled as it would behave if called.

## Findings

| source | as written | input that shows it | evidently intended | confidence | as-written member | corrected member |
|---|---|---|---|---|---|---|
| app/src/main/java/com/example/chatapp/Navigation/DestinationScreen.kt:8-13 | the routes of SingleChat and SingleStatus start with a blank (`" singleChat/{chatId}"`, `" singleStatus/{userId}"`), but `createRoute` builds routes without it | `SingleChat.createRoute("c1")` is `"singleChat/c1"`, which no route starting with a blank matches | templates without the leading blank, so that a created route matches its own destination and yields the argument back | not executed | `Destinations.SingleChatRouteNeverMatches`, `Destinations.SingleStatusRouteNeverMatches` | `Destinations.CorrectedSingleChatRouteRoundTrip`, `Destinations.CorrectedSingleStatusRouteRoundTrip` |

=== FILE: add_chat.dfy ===
/** `onAddChat(number)`: the one write path with a decision in it. The chat
    and profile collections are inputs, as the backend delivered them to the
    two queries; the chat id is whatever fresh id the database handed out. */
module AddChat {
  import opened Kotlin
  import opened DataTypes
  import opened ViewModelState

  /** `number.isNullOrEmpty() or !number.isDigitsOnly()` */
  predicate InvalidNumber(number: string)
  {
    number == "" || !IsDigitsOnly(number)
  }

  /** The duplicate-chat filter: `candidate` in slot one and `mine` in slot
      two, or the other way round. */
  predicate LinksNumbers(c: ChatData, candidate: string, mine: Option<string>)
  {
    (c.user1.number == Some(candidate) && c.user2.number == mine)
    || (c.user1.number == mine && c.user2.number == Some(candidate))
  }

  predicate ChatExists(chats: seq<ChatData>, candidate: string, mine: Option<string>)
  {
    exists c :: c in chats && LinksNumbers(c, candidate, mine)
  }

  /** The first profile carrying `number` (`toObjects<UserData>()[0]` of
      the number query), if any. */
  function FirstWithNumber(profiles: seq<UserData>, number: string): (r: Option<UserData>)
    ensures r.Some? <==> exists p :: p in profiles && p.number == Some(number)
    ensures r.Some? ==> r.value in profiles && r.value.number == Some(number)
    ensures r.Some? ==> exists i :: (0 <= i < |profiles| && profiles[i] == r.value
                                     && forall j :: 0 <= j < i ==> profiles[j].number != Some(number))
  {
    if |profiles| == 0 then None
    else if profiles[0].number == Some(number) then Some(profiles[0])
    else
      var r := FirstWithNumber(profiles[1..], number);
      assert forall p :: p in profiles[1..] ==> p in profiles;
      assert forall p :: p in profiles && p != profiles[0] ==> p in profiles[1..];
      if r.Some? then
        var i :| 0 <= i < |profiles[1..]| && profiles[1..][i] == r.value
          && forall j :: 0 <= j < i ==> profiles[1..][j].number != Some(number);
        assert profiles[i + 1] == r.value;
        r
      else r
  }

  /** The participant snapshot of a profile (or of no profile). */
  function Snapshot(u: Option<UserData>): (c: ChatUser)
    ensures u.None? ==> c == ChatUser(None, None, None, None)
    ensures u.Some? ==> (c.userId == u.value.userId && c.name == u.value.name
                         && c.imageUrl == u.value.imageUrl && c.number == u.value.number)
  {
    if u.Some? then ChatUser(u.value.userId, u.value.name, u.value.imageUrl, u.value.number)
    else ChatUser(None, None, None, None)
  }

  /** `onAddChat(number)`. An invalid number is rejected before any query;
      an existing chat for the pair, in either slot order, is reported;
      an unknown number is reported; otherwise exactly one chat is written,
      holding a snapshot of the current profile and of the first profile
      with the number. The view model's state is unchanged on success. */
  function OnAddChat(st: VmState, number: string, chats: Remote<seq<ChatData>>,
                     profiles: Remote<seq<UserData>>, freshId: string): (r: Step)
    ensures |r.writes| <= 1
    ensures InvalidNumber(number) ==>
      r.writes == [] && Announces(r.state, "Number must contain only digits: ")
    ensures !InvalidNumber(number) && chats.Done? && ChatExists(chats.value, number, MyNumber(st)) ==>
      r.writes == [] && Announces(r.state, "Chat already exists: ")
    ensures !InvalidNumber(number) && chats.Failed? ==>
      r.writes == [] && Announces(r.state, ErrorMessage(Some(chats.error), DefaultCustomMessage))
    ensures !InvalidNumber(number) && chats.Done? && !ChatExists(chats.value, number, MyNumber(st))
            && profiles.Failed? ==>
      r.writes == [] && Announces(r.state, ErrorMessage(Some(profiles.error), DefaultCustomMessage))
    ensures !InvalidNumber(number) && chats.Done? && !ChatExists(chats.value, number, MyNumber(st))
            && profiles.Done? && FirstWithNumber(profiles.value, number).None? ==>
      r.writes == [] && Announces(r.state, "Cannot retrieve user with number " + number + ": ")
    ensures |r.writes| == 1 <==>
      && !InvalidNumber(number)
      && chats.Done? && !ChatExists(chats.value, number, MyNumber(st))
      && profiles.Done? && FirstWithNumber(profiles.value, number).Some?
    ensures |r.writes| == 1 ==>
      && r.writes[0] == SetChat(freshId, ChatData(Some(freshId), Snapshot(st.userData),
                                                  Snapshot(FirstWithNumber(profiles.value, number))))
      && r.state == st
  {
    if InvalidNumber(number) then
      assert "Number must contain only digits" + ": " == "Number must contain only digits: ";
      Step(HandleException(st, None, "Number must contain only digits"), [])
    else
      match chats
      case Failed(e) => Step(HandleException(st, Some(e), DefaultCustomMessage), [])
      case Done(existing) =>
        if ChatExists(existing, number, MyNumber(st)) then
          assert "Chat already exists" + ": " == "Chat already exists: ";
          Step(HandleException(st, None, "Chat already exists"), [])
        else
          match profiles
          case Failed(e) => Step(HandleException(st, Some(e), DefaultCustomMessage), [])
          case Done(users) =>
            var partner := FirstWithNumber(users, number);
            if partner.None? then
              Step(HandleException(st, None, "Cannot retrieve user with number " + number), [])
            else
              var chat := ChatData(Some(freshId), Snapshot(st.userData), Snapshot(partner));
              Step(st, [SetChat(freshId, chat)])
  }

  /** An invalid number short-circuits: the outcome does not depend on what
      either query would have returned. */
  lemma AddChatValidationShortCircuits(st: VmState, number: string, freshId: string,
                                       chats1: Remote<seq<ChatData>>, profiles1: Remote<seq<UserData>>,
                                       chats2: Remote<seq<ChatData>>, profiles2: Remote<seq<UserData>>)
    requires InvalidNumber(number)
    ensures OnAddChat(st, number, chats1, profiles1, freshId) == OnAddChat(st, number, chats2, profiles2, freshId)
  {
  }

  /** Once A (number "111") has added a chat with B (number "222"), B's
      attempt to add a chat with A is reported as a duplicate and writes
      nothing: the written chat matches the filter with the slots swapped. */
  lemma SecondAddChatConflicts(stA: VmState, stB: VmState, chats: seq<ChatData>,
                               profiles: seq<UserData>, id1: string, id2: string)
    requires MyNumber(stA) == Some("111") && MyNumber(stB) == Some("222")
    requires exists p :: p in profiles && p.number == Some("222")
    requires !ChatExists(chats, "222", Some("111"))
    ensures var first := OnAddChat(stA, "222", Done(chats), Done(profiles), id1);
      && |first.writes| == 1
      && var second := OnAddChat(stB, "111", Done(chats + [first.writes[0].chat]), Done(profiles), id2);
      && second.writes == []
      && Announces(second.state, "Chat already exists: ")
  {
    var first := OnAddChat(stA, "222", Done(chats), Done(profiles), id1);
    var c := first.writes[0].chat;
    assert c.user1.number == Some("111");
    assert c.user2.number == Some("222");
    assert LinksNumbers(c, "111", Some("222"));
    assert c in chats + [c];
    assert !InvalidNumber("111") by {
      assert "111"[0] == '1' && "111"[1] == '1' && "111"[2] == '1';
    }
  }
}

=== FILE: chat_sync.dfy ===
/** The chat list and the message list of the open chat: the listeners the
    view model registers (`populateChats`, `populateChat`), what their
    snapshots publish, and `depopulateChat`. */
module ChatSync {
  import opened Kotlin
  import opened DataTypes
  import opened MessageOrder
  import opened ViewModelState

  /** `populateChats()`: registers a chat-list listener for the current
      user's id. */
  function PopulateChats(st: VmState): (r: VmState)
    ensures r.chatListListeners == st.chatListListeners + [MyUserId(st)]
    ensures r.(chatListListeners := st.chatListListeners) == st
  {
    st.(chatListListeners := st.chatListListeners + [MyUserId(st)])
  }

  /** A chat-list snapshot: an error is reported, and a delivered snapshot
      replaces the chat list with the documents that map to a chat, in
      delivery order. */
  function OnChatListSnapshot(st: VmState, listener: nat, error: Option<Exception>,
                              value: Option<seq<Option<ChatData>>>): (r: VmState)
    requires listener < |st.chatListListeners|
    ensures value.Some? ==> forall c :: c in r.chats <==> Some(c) in value.value
    ensures value.Some? ==> |r.chats| <= |value.value|
    ensures value.Some? ==> r.chats == Somes(value.value)
    ensures value.None? ==> r.chats == st.chats
    ensures error.Some? ==> Announces(r, ErrorMessage(error, DefaultCustomMessage))
    ensures error.None? ==> r.popupNotification == st.popupNotification
    ensures r.userData == st.userData && r.signedIn == st.signedIn
    ensures r.(chats := st.chats, popupNotification := st.popupNotification,
               inProgress := st.inProgress) == st
    ensures error.None? ==> r.(chats := st.chats) == st
  {
    var st1 := if error.Some? then HandleException(st, error, DefaultCustomMessage) else st;
    if value.Some? then st1.(chats := Somes(value.value)) else st1
  }

  /** `populateChat(chatId)`: registers one more message listener for the
      chat and makes it the referenced one; earlier listeners stay
      registered. */
  function PopulateChat(st: VmState, chatId: string): (r: VmState)
    ensures r.messageListeners == st.messageListeners + [chatId]
    ensures r.currentChatMessagesListener == Some(|st.messageListeners|)
    ensures r.chatMessages == st.chatMessages
    ensures r.(messageListeners := st.messageListeners,
               currentChatMessagesListener := st.currentChatMessagesListener) == st
  {
    st.(messageListeners := st.messageListeners + [chatId],
        currentChatMessagesListener := Some(|st.messageListeners|))
  }

  /** `depopulateChat()`: drops the reference to the message listener and
      empties the message list; the listener itself stays registered. */
  function DepopulateChat(st: VmState): (r: VmState)
    ensures r.chatMessages == []
    ensures r.currentChatMessagesListener.None?
    ensures r.messageListeners == st.messageListeners
    ensures r.(chatMessages := st.chatMessages,
               currentChatMessagesListener := st.currentChatMessagesListener) == st
  {
    st.(chatMessages := [], currentChatMessagesListener := None)
  }

  /** The message list a snapshot publishes: the documents that map to a
      message, stably sorted by timestamp. */
  function ShapeMessages(docs: seq<Option<Message>>): (r: seq<Message>)
    ensures Sorted(r)
    ensures multiset(r) == multiset(Somes(docs))
    ensures forall m :: m in r <==> Some(m) in docs
    ensures forall t :: Ties(r, t) == Ties(Somes(docs), t)
  {
    var mapped := Somes(docs);
    var r := SortByTimestamp(mapped);
    forall t
      ensures Ties(r, t) == Ties(mapped, t)
    {
      SortIsStable(mapped, t);
    }
    assert forall m :: m in r <==> m in multiset(mapped);
    r
  }

  /** A snapshot delivered by any registered message listener. The view
      model does not check whether the listener is still the referenced
      one: a delivered snapshot always replaces the message list. */
  function OnChatMessagesSnapshot(st: VmState, listener: nat, error: Option<Exception>,
                                  value: Option<seq<Option<Message>>>): (r: VmState)
    requires listener < |st.messageListeners|
    ensures value.Some? ==> r.chatMessages == ShapeMessages(value.value)
    ensures value.None? ==> r.chatMessages == st.chatMessages
    ensures error.Some? ==> Announces(r, ErrorMessage(error, DefaultCustomMessage))
    ensures error.None? ==> r.popupNotification == st.popupNotification
    ensures r.messageListeners == st.messageListeners
    ensures r.currentChatMessagesListener == st.currentChatMessagesListener
    ensures r.(chatMessages := st.chatMessages, popupNotification := st.popupNotification,
               inProgress := st.inProgress) == st
    ensures error.None? ==> r.(chatMessages := st.chatMessages) == st
  {
    var st1 := if error.Some? then HandleException(st, error, DefaultCustomMessage) else st;
    if value.Some? then st1.(chatMessages := ShapeMessages(value.value)) else st1
  }

  /** After leaving a chat, a late snapshot from the listener opened for it
      fills the message list again: leaving does not cancel the listener. */
  lemma StaleSnapshotRepopulates(st: VmState, chatId: string, docs: seq<Option<Message>>)
    requires exists m :: Some(m) in docs
    ensures var left := DepopulateChat(PopulateChat(st, chatId));
      && left.chatMessages == []
      && |st.messageListeners| < |left.messageListeners|
      && OnChatMessagesSnapshot(left, |st.messageListeners|, None, Some(docs)).chatMessages != []
  {
    var m :| Some(m) in docs;
    var left := DepopulateChat(PopulateChat(st, chatId));
    assert m in OnChatMessagesSnapshot(left, |st.messageListeners|, None, Some(docs)).chatMessages;
  }
}

=== FILE: datatypes.dfy ===
/** The records the chat client stores in and reads from the document
    database: profiles, chats with their two participant snapshots, messages
    and statuses. Every field is nullable, as in the Kotlin data classes. */
module DataTypes {
  import opened Kotlin

  /** A user profile document. */
  datatype UserData = UserData(
    userId: Option<string>,
    name: Option<string>,
    number: Option<string>,
    imageUrl: Option<string>,
    status: Option<string>,
    statusImg: Option<string>,
    contacts: Option<seq<string>>)

  /** `UserData(userId, name, number, imageUrl)`: the constructor call that
      leaves status, statusImg and contacts at their declared defaults. */
  function NewUserData(userId: Option<string>, name: Option<string>, number: Option<string>,
                       imageUrl: Option<string>): (u: UserData)
    ensures u.userId == userId && u.name == name && u.number == number && u.imageUrl == imageUrl
    ensures u.status == Some("") && u.statusImg == Some(" ") && u.contacts == Some([])
  {
    UserData(userId, name, number, imageUrl, Some(""), Some(" "), Some([]))
  }

  /** `UserData()` */
  function DefaultUserData(): UserData
  {
    NewUserData(Some(""), Some(""), Some(""), Some(""))
  }

  /** A participant as embedded in a chat or status: a copy of some profile
      fields taken when the record was written, not kept in sync. */
  datatype ChatUser = ChatUser(
    userId: Option<string>,
    name: Option<string>,
    imageUrl: Option<string>,
    number: Option<string>)

  /** `ChatUser()` */
  function DefaultChatUser(): ChatUser
  {
    ChatUser(Some(""), Some(" "), Some(" "), Some(" "))
  }

  /** A chat between two users; neither slot is reserved for either party. */
  datatype ChatData = ChatData(chatId: Option<string>, user1: ChatUser, user2: ChatUser)

  /** `ChatData()` */
  function DefaultChatData(): ChatData
  {
    ChatData(Some(""), DefaultChatUser(), DefaultChatUser())
  }

  /** A chat message; its timestamp is a date rendered as text. */
  datatype Message = Message(sentBy: Option<string>, message: Option<string>, timestamp: Option<string>)

  /** `Message()`: every field the empty text. */
  function DefaultMessage(): Message
  {
    Message(Some(""), Some(""), Some(""))
  }

  /** A status post; its timestamp is a count of milliseconds. */
  datatype Status = Status(user: ChatUser, imageUrl: Option<string>, message: Option<int>,
                           timestamp: Option<int>)

  /** `Status()` */
  function DefaultStatus(): Status
  {
    Status(DefaultChatUser(), Some(""), None, None)
  }

  /** The defaults of the two participant records: a default chat holds two
      equal participants whose id is empty and whose other fields are a
      single blank. */
  lemma DefaultChatParticipants()
    ensures DefaultChatData().user1 == DefaultChatData().user2
    ensures DefaultChatData().user1.userId == Some("")
    ensures DefaultChatData().user1.name == DefaultChatData().user1.imageUrl
         == DefaultChatData().user1.number == Some(" ")
    ensures DefaultUserData().status == Some("") && DefaultUserData().statusImg == Some(" ")
    ensures DefaultUserData().contacts == Some([])
    ensures DefaultStatus().timestamp.None? && DefaultStatus().message.None?
    ensures DefaultMessage().sentBy == DefaultMessage().message == DefaultMessage().timestamp == Some("")
  {
  }

  /** A field value as the document database stores it. */
  datatype FieldValue = Text(text: Option<string>) | TextList(list: Option<seq<string>>)

  /** The field names of a profile document. */
  const ProfileKeys: set<string> :=
    {"userId", "name", "number", "imageUrl", "status", "statusImg", "contacts"}

  /** `UserData.toMap()`: the field map a profile update writes. */
  function ToMap(u: UserData): (m: map<string, FieldValue>)
    ensures m.Keys == ProfileKeys
    ensures forall k :: k in m ==> (m[k].TextList? <==> k == "contacts")
  {
    map[
      "userId" := Text(u.userId),
      "name" := Text(u.name),
      "number" := Text(u.number),
      "imageUrl" := Text(u.imageUrl),
      "status" := Text(u.status),
      "statusImg" := Text(u.statusImg),
      "contacts" := TextList(u.contacts)]
  }

  /** The text field `key` of a field map, if it holds one. */
  function TextField(m: map<string, FieldValue>, key: string): Option<Option<string>>
  {
    if key in m && m[key].Text? then Some(m[key].text) else None
  }

  /** Reads a stored field map back as a profile, by field name; None when a
      field is missing or of the wrong kind. */
  function FromMap(m: map<string, FieldValue>): Option<UserData>
  {
    var userId := TextField(m, "userId");
    var name := TextField(m, "name");
    var number := TextField(m, "number");
    var imageUrl := TextField(m, "imageUrl");
    var status := TextField(m, "status");
    var statusImg := TextField(m, "statusImg");
    if userId.Some? && name.Some? && number.Some? && imageUrl.Some? && status.Some?
       && statusImg.Some? && "contacts" in m && m["contacts"].TextList?
    then Some(UserData(userId.value, name.value, number.value, imageUrl.value, status.value,
                       statusImg.value, m["contacts"].list))
    else None
  }

  /** Each key of `toMap` holds the field of the same name: reading the map
      back by field name gives the record again. */
  lemma ToMapRoundTrip(u: UserData)
    ensures FromMap(ToMap(u)) == Some(u)
  {
  }

  /** The text stored under `key` in `fields`, or `default` when `fields`
      holds no text under that key. */
  function FieldOr(fields: map<string, FieldValue>, key: string, default: Option<string>): Option<string>
  {
    match TextField(fields, key)
    case Some(v) => v
    case None => default
  }

  /** A partial update of a stored profile: every field named in `fields`
      with a value of the right kind is overwritten, the others are kept. */
  function ApplyUpdate(doc: UserData, fields: map<string, FieldValue>): (r: UserData)
    ensures forall k :: k in fields && fields[k].Text? && k in ProfileKeys - {"contacts"} ==>
      TextField(fields, k) == Some(FieldOf(r, k))
    ensures forall k :: k in ProfileKeys - {"contacts"} && TextField(fields, k).None? ==>
      FieldOf(r, k) == FieldOf(doc, k)
    ensures "contacts" in fields && fields["contacts"].TextList? ==> r.contacts == fields["contacts"].list
    ensures !("contacts" in fields && fields["contacts"].TextList?) ==> r.contacts == doc.contacts
  {
    UserData(
      FieldOr(fields, "userId", doc.userId),
      FieldOr(fields, "name", doc.name),
      FieldOr(fields, "number", doc.number),
      FieldOr(fields, "imageUrl", doc.imageUrl),
      FieldOr(fields, "status", doc.status),
      FieldOr(fields, "statusImg", doc.statusImg),
      if "contacts" in fields && fields["contacts"].TextList? then fields["contacts"].list
      else doc.contacts)
  }

  /** The text field of a profile with the given name. */
  function FieldOf(u: UserData, key: string): Option<string>
    requires key in ProfileKeys - {"contacts"}
  {
    if key == "userId" then u.userId
    else if key == "name" then u.name
    else if key == "number" then u.number
    else if key == "imageUrl" then u.imageUrl
    else if key == "status" then u.status
    else u.statusImg
  }

  /** Updating any stored profile with the full map of a record stores that
      record: an update with `toMap` and a plain set store the same fields. */
  lemma {:induction false} UpdateWithToMapStoresRecord(doc: UserData, u: UserData)
    ensures ApplyUpdate(doc, ToMap(u)) == u
  {
    var m := ToMap(u);
    assert TextField(m, "userId") == Some(u.userId);
    assert TextField(m, "name") == Some(u.name);
    assert TextField(m, "number") == Some(u.number);
    assert TextField(m, "imageUrl") == Some(u.imageUrl);
    assert TextField(m, "status") == Some(u.status);
    assert TextField(m, "statusImg") == Some(u.statusImg);
  }
}

=== FILE: destinations.dfy ===
/** The navigation destinations: their route templates, kept verbatim, and
    the two `createRoute` helpers that fill in a template argument. */
module Destinations {
  import opened Kotlin

  datatype Destination = SignUp | Login | Profile | ChatList | SingleChat | StatusList | SingleStatus

  /** A route template: plain text, or text followed by one `{name}`
      placeholder. */
  datatype Template = Literal(text: string) | WithArgument(prefix: string, name: string)

  /** The template string a destination is registered under. */
  function Render(t: Template): string
  {
    match t
    case Literal(text) => text
    case WithArgument(prefix, name) => prefix + "{" + name + "}"
  }

  /** `DestinationScreen.route`: the strings as declared, leading blanks
      included. */
  function Route(d: Destination): string
  {
    match d
    case SignUp => "signup"
    case Login => "Login"
    case Profile => " profile"
    case ChatList => "chatList"
    case SingleChat => " singleChat/{chatId}"
    case StatusList => "statusList"
    case SingleStatus => " singleStatus/{userId}"
  }

  /** The declared routes read as templates: the two with a `{name}` part
      carry one argument. */
  function TemplateOf(d: Destination): Template
  {
    match d
    case SingleChat => WithArgument(" singleChat/", "chatId")
    case SingleStatus => WithArgument(" singleStatus/", "userId")
    case _ => Literal(Route(d))
  }

  /** Reading a route as a template loses nothing: rendering the template
      gives the declared string back. */
  lemma TemplateRendersRoute(d: Destination)
    ensures Render(TemplateOf(d)) == Route(d)
  {
    match d
    case SingleChat =>
      assert " singleChat/" + "{" + "chatId" + "}" == " singleChat/{chatId}";
    case SingleStatus =>
      assert " singleStatus/" + "{" + "userId" + "}" == " singleStatus/{userId}";
    case _ =>
  }

  /** The seven routes differ pairwise. */
  lemma RoutesDistinct()
    ensures forall d, e :: d != e ==> Route(d) != Route(e)
  {
    forall d, e | d != e
      ensures Route(d) != Route(e)
    {
      RouteLengthAndHead(d);
      RouteLengthAndHead(e);
    }
  }

  /** The length and first character of each route; no two destinations
      agree on both. */
  lemma RouteLengthAndHead(d: Destination)
    ensures (|Route(d)|, Route(d)[0]) == match d
      case SignUp => (6, 's')
      case Login => (5, 'L')
      case Profile => (8, ' ')
      case ChatList => (8, 'c')
      case SingleChat => (20, ' ')
      case StatusList => (10, 's')
      case SingleStatus => (22, ' ')
  {
  }

  /** `SingleChat.createRoute(id)` */
  function SingleChatRoute(id: string): string
  {
    "singleChat/" + id
  }

  /** `SingleStatus.createRoute(userId)`; a null id renders as "null". */
  function SingleStatusRoute(userId: Option<string>): string
  {
    "singleStatus/" + Show(userId)
  }

  /** Different chat ids give different chat routes. */
  lemma SingleChatRouteInjective(a: string, b: string)
    ensures SingleChatRoute(a) == SingleChatRoute(b) <==> a == b
  {
    if SingleChatRoute(a) == SingleChatRoute(b) {
      assert a == SingleChatRoute(a)[11..];
      assert b == SingleChatRoute(b)[11..];
    }
  }

  /** Two status routes agree exactly when the ids render alike; in
      particular distinct non-null ids give distinct routes. */
  lemma SingleStatusRouteInjective(a: Option<string>, b: Option<string>)
    ensures SingleStatusRoute(a) == SingleStatusRoute(b) <==> Show(a) == Show(b)
    ensures a.Some? && b.Some? ==> (SingleStatusRoute(a) == SingleStatusRoute(b) <==> a == b)
  {
    if SingleStatusRoute(a) == SingleStatusRoute(b) {
      assert Show(a) == SingleStatusRoute(a)[13..];
      assert Show(b) == SingleStatusRoute(b)[13..];
    }
  }

  /** A null id and the id "null" produce the same status route. */
  lemma SingleStatusRouteNullCollision()
    ensures SingleStatusRoute(None) == SingleStatusRoute(Some("null"))
  {
  }

  /** A chat route is never a status route. */
  lemma ChatRouteIsNeverStatusRoute(id: string, userId: Option<string>)
    ensures SingleChatRoute(id) != SingleStatusRoute(userId)
  {
    assert SingleChatRoute(id)[6] == 'C';
    assert SingleStatusRoute(userId)[6] == 'S';
  }

  /** A simplified route matcher: a literal template matches only itself; a
      template with a placeholder matches its prefix followed by a non-empty
      argument without '/', and yields the argument as it stands. A real
      navigation host also cuts the route at '?' and '#' and percent-decodes
      the argument; the round trips below are stated only for ids on which
      that makes no difference. */
  function Match(t: Template, route: string): Option<string>
  {
    match t
    case Literal(text) => if route == text then Some("") else None
    case WithArgument(prefix, _) =>
      if |prefix| < |route| && route[..|prefix|] == prefix && '/' !in route[|prefix|..]
      then Some(route[|prefix|..])
      else None
  }

  /** As written, the route built by `SingleChat.createRoute` never matches
      the template its destination is registered under, whatever the id. */
  lemma SingleChatRouteNeverMatches(id: string)
    ensures Match(TemplateOf(SingleChat), SingleChatRoute(id)).None?
  {
    var route := SingleChatRoute(id);
    if 12 < |route| {
      assert route[..12][0] == 's' != ' ';
    }
  }

  /** As written, the route built by `SingleStatus.createRoute` never
      matches its destination's template either. */
  lemma SingleStatusRouteNeverMatches(userId: Option<string>)
    ensures Match(TemplateOf(SingleStatus), SingleStatusRoute(userId)).None?
  {
    var route := SingleStatusRoute(userId);
    if 14 < |route| {
      assert route[..14][0] == 's' != ' ';
    }
  }

  /** A template with one blank put in front. */
  function WithBlank(t: Template): Template
  {
    match t
    case Literal(text) => Literal(" " + text)
    case WithArgument(prefix, name) => WithArgument(" " + prefix, name)
  }

  /** The templates without the leading blanks: each differs from the
      declared one at most by that blank. */
  function CorrectedTemplateOf(d: Destination): (t: Template)
    ensures TemplateOf(d) == t || TemplateOf(d) == WithBlank(t)
    ensures t.Literal? == TemplateOf(d).Literal?
  {
    match d
    case Profile =>
      assert " " + "profile" == " profile";
      Literal("profile")
    case SingleChat =>
      assert " " + "singleChat/" == " singleChat/";
      WithArgument("singleChat/", "chatId")
    case SingleStatus =>
      assert " " + "singleStatus/" == " singleStatus/";
      WithArgument("singleStatus/", "userId")
    case _ => TemplateOf(d)
  }

  /** With the corrected template, `SingleChat.createRoute(id)` matches and
      hands the id back to the destination, for every id the matcher can
      carry unchanged (non-empty, without '/', '?', '#' or '%'). */
  lemma CorrectedSingleChatRouteRoundTrip(id: string)
    requires |id| > 0 && '/' !in id && '?' !in id && '#' !in id && '%' !in id
    ensures Match(CorrectedTemplateOf(SingleChat), SingleChatRoute(id)) == Some(id)
  {
    var route := SingleChatRoute(id);
    assert route[..11] == "singleChat/";
    assert route[11..] == id;
  }

  /** With the corrected template, `SingleStatus.createRoute(u)` matches and
      hands the rendered id back, for every non-empty id without '/', '?',
      '#' or '%'. */
  lemma CorrectedSingleStatusRouteRoundTrip(userId: Option<string>)
    requires userId.Some? ==>
      |userId.value| > 0 && '/' !in userId.value && '?' !in userId.value
      && '#' !in userId.value && '%' !in userId.value
    ensures Match(CorrectedTemplateOf(SingleStatus), SingleStatusRoute(userId)) == Some(Show(userId))
  {
    var route := SingleStatusRoute(userId);
    assert route[..13] == "singleStatus/";
    assert route[13..] == Show(userId);
  }
}

=== FILE: event.dfy ===
/** `Event<T>`: a notification cell that hands out its content once. It has
    two states, unhandled and handled, and only ever moves from the first to
    the second. */
module Events {
  import opened Kotlin

  datatype Event<T> = Event(content: T, hasBeenHandled: bool)

  /** A freshly constructed event has not been handled yet. */
  function New<T>(content: T): (e: Event<T>)
    ensures e.content == content
    ensures !e.hasBeenHandled
  {
    Event(content, false)
  }

  /** `getContentorNull()`: the content on the first call and null on every
      later one. Returns the event as it is after the call, and the answer. */
  function GetContentOrNull<T>(e: Event<T>): (r: (Event<T>, Option<T>))
    ensures r.0.content == e.content
    ensures r.0.hasBeenHandled
    ensures r.1.Some? <==> !e.hasBeenHandled
    ensures r.1.Some? ==> r.1.value == e.content
  {
    if e.hasBeenHandled then (e, None)
    else (e.(hasBeenHandled := true), Some(e.content))
  }

  /** `n` successive calls of `getContentorNull()`: the event afterwards and
      the answers in call order. */
  function ConsumeTimes<T>(e: Event<T>, n: nat): (r: (Event<T>, seq<Option<T>>))
    ensures |r.1| == n
    ensures r.0.content == e.content
    ensures e.hasBeenHandled ==> r.0.hasBeenHandled
    ensures n > 0 ==> r.0.hasBeenHandled
    ensures n > 0 ==> (r.1[0].Some? <==> !e.hasBeenHandled)
    ensures n > 0 && r.1[0].Some? ==> r.1[0].value == e.content
    ensures forall i :: 0 < i < n ==> r.1[i].None?
    ensures e.hasBeenHandled ==> forall i :: 0 <= i < n ==> r.1[i].None?
    decreases n
  {
    if n == 0 then (e, [])
    else
      var (e1, first) := GetContentOrNull(e);
      var (e2, rest) := ConsumeTimes(e1, n - 1);
      (e2, [first] + rest)
  }

  lemma {:induction false} CountSomeOfNones<T>(s: seq<Option<T>>)
    requires forall i :: 0 <= i < |s| ==> s[i].None?
    ensures CountSome(s) == 0
  {
    if |s| > 0 {
      CountSomeOfNones(s[1..]);
    }
  }

  /** Over any run of n >= 1 calls on a fresh event the content is returned
      exactly once, by the first call. */
  lemma ContentReturnedExactlyOnce<T>(content: T, n: nat)
    requires n >= 1
    ensures CountSome(ConsumeTimes(New(content), n).1) == 1
    ensures ConsumeTimes(New(content), n).1[0] == Some(content)
  {
    var answers := ConsumeTimes(New(content), n).1;
    CountSomeOfNones(answers[1..]);
  }
}

=== FILE: kotlin.dfy ===
/** The few Kotlin language facts the model of the chat client relies on:
    nullable values, the elvis operator, string templates and `isDigitsOnly`. */
module Kotlin {

  /** A nullable value `T?`; `None` is Kotlin's `null`. */
  datatype Option<+T> = None | Some(value: T)

  /** The elvis operator `a ?: b`. */
  function Elvis<T>(a: Option<T>, b: Option<T>): Option<T>
  {
    if a.Some? then a else b
  }

  /** How a string template `"$x"` renders a `String?`: `null` prints as the
      four characters "null". */
  function Show(s: Option<string>): string
  {
    if s.Some? then s.value else "null"
  }

  /** `isDigitsOnly`, with the digits restricted to ASCII '0'..'9'. */
  predicate IsDigitsOnly(s: string)
  {
    forall i :: 0 <= i < |s| ==> '0' <= s[i] <= '9'
  }

  /** `mapNotNull { it }`: the present values, in their original order. The
      present entry at position `i` lands at position `CountSome(s[..i])`,
      the number of present entries before it, so nothing is dropped,
      repeated or reordered. */
  function Somes<T(==,!new)>(s: seq<Option<T>>): (r: seq<T>)
    ensures |r| == CountSome(s) <= |s|
    ensures forall x :: x in r <==> Some(x) in s
    ensures forall i :: 0 <= i < |s| && s[i].Some? ==>
      CountSome(s[..i]) < |r| && r[CountSome(s[..i])] == s[i].value
  {
    if |s| == 0 then []
    else
      var rest := Somes(s[1..]);
      var head := if s[0].Some? then [s[0].value] else [];
      forall i | 1 <= i < |s|
        ensures CountSome(s[..i]) == |head| + CountSome(s[1..][..i - 1])
      {
        assert s[..i][1..] == s[1..][..i - 1];
      }
      head + rest
  }

  /** How many entries of `s` are present. */
  function CountSome<T>(s: seq<Option<T>>): nat
  {
    if |s| == 0 then 0
    else (if s[0].Some? then 1 else 0) + CountSome(s[1..])
  }
}

=== FILE: message_order.dfy ===
/** How the chat client orders a chat's messages: `sortedBy { it.timestamp }`
    on a nullable text timestamp, which is a stable sort under Kotlin's
    `compareValues` (null first) and `String.compareTo` (lexicographic). */
module MessageOrder {
  import opened Kotlin
  import opened DataTypes

  /** `a.compareTo(b) <= 0`: the first differing character decides; when
      one string is a prefix of the other, the shorter comes first. */
  predicate StrLe(a: string, b: string)
    decreases |a|
  {
    |a| == 0 || (|b| > 0 && (a[0] < b[0] || (a[0] == b[0] && StrLe(a[1..], b[1..]))))
  }

  lemma {:induction false} StrLeTotal(a: string, b: string)
    ensures StrLe(a, b) || StrLe(b, a)
    decreases |a|
  {
    if |a| > 0 && |b| > 0 && a[0] == b[0] {
      StrLeTotal(a[1..], b[1..]);
    }
  }

  lemma {:induction false} StrLeAntisymmetric(a: string, b: string)
    requires StrLe(a, b) && StrLe(b, a)
    ensures a == b
    decreases |a|
  {
    if |a| > 0 {
      StrLeAntisymmetric(a[1..], b[1..]);
      assert a == [a[0]] + a[1..] && b == [b[0]] + b[1..];
    }
  }

  lemma {:induction false} StrLeTransitive(a: string, b: string, c: string)
    requires StrLe(a, b) && StrLe(b, c)
    ensures StrLe(a, c)
    decreases |a|
  {
    if |a| > 0 && a[0] == b[0] && b[0] == c[0] {
      StrLeTransitive(a[1..], b[1..], c[1..]);
    }
  }

  /** `compareValues(a, b) <= 0` on nullable timestamps: null sorts first. */
  predicate TimestampLe(a: Option<string>, b: Option<string>)
  {
    a.None? || (b.Some? && StrLe(a.value, b.value))
  }

  /** The ordering `TimestampLe` is total, antisymmetric and transitive, so
      sorting by it is well defined. */
  lemma TimestampLeIsTotalOrder(a: Option<string>, b: Option<string>, c: Option<string>)
    ensures TimestampLe(a, b) || TimestampLe(b, a)
    ensures TimestampLe(a, b) && TimestampLe(b, a) ==> a == b
    ensures TimestampLe(a, b) && TimestampLe(b, c) ==> TimestampLe(a, c)
  {
    if a.Some? && b.Some? {
      StrLeTotal(a.value, b.value);
      if StrLe(a.value, b.value) && StrLe(b.value, a.value) {
        StrLeAntisymmetric(a.value, b.value);
      }
    }
    if a.Some? && b.Some? && c.Some? && StrLe(a.value, b.value) && StrLe(b.value, c.value) {
      StrLeTransitive(a.value, b.value, c.value);
    }
  }

  /** Ascending by timestamp. */
  predicate Sorted(s: seq<Message>)
  {
    forall i, j :: 0 <= i < j < |s| ==> TimestampLe(s[i].timestamp, s[j].timestamp)
  }

  /** `[m]` when `m` carries timestamp `t`, otherwise nothing. */
  function TieOf(m: Message, t: Option<string>): seq<Message>
  {
    if m.timestamp == t then [m] else []
  }

  /** The messages of `s` carrying timestamp `t`, in order. */
  function Ties(s: seq<Message>, t: Option<string>): seq<Message>
  {
    if |s| == 0 then [] else TieOf(s[0], t) + Ties(s[1..], t)
  }

  /** `Ties` of a list with `h` in front. */
  lemma TiesCons(h: Message, s: seq<Message>, t: Option<string>)
    ensures Ties([h] + s, t) == TieOf(h, t) + Ties(s, t)
  {
    assert ([h] + s)[0] == h;
    assert ([h] + s)[1..] == s;
  }

  lemma {:induction false} TiesConcat(a: seq<Message>, b: seq<Message>, t: Option<string>)
    ensures Ties(a + b, t) == Ties(a, t) + Ties(b, t)
  {
    if |a| == 0 {
      assert a + b == b;
    } else {
      assert a + b == [a[0]] + (a[1..] + b);
      TiesCons(a[0], a[1..] + b, t);
      TiesConcat(a[1..], b, t);
      assert TieOf(a[0], t) + (Ties(a[1..], t) + Ties(b, t))
          == (TieOf(a[0], t) + Ties(a[1..], t)) + Ties(b, t);
    }
  }

  lemma {:induction false} NoTies(s: seq<Message>, t: Option<string>)
    requires forall i :: 0 <= i < |s| ==> s[i].timestamp != t
    ensures Ties(s, t) == []
  {
    if |s| > 0 {
      NoTies(s[1..], t);
    }
  }

  /** Putting `h` in front of a sorted list keeps it sorted when no element
      of the list sorts before `h`. */
  lemma ConsSorted(h: Message, s: seq<Message>)
    requires Sorted(s)
    requires forall x :: x in s ==> TimestampLe(h.timestamp, x.timestamp)
    ensures Sorted([h] + s)
  {
    forall i, j | 0 <= i < j < |[h] + s|
      ensures TimestampLe(([h] + s)[i].timestamp, ([h] + s)[j].timestamp)
    {
      if i == 0 {
        assert ([h] + s)[j] == s[j - 1];
        assert s[j - 1] in s;
      } else {
        assert ([h] + s)[i] == s[i - 1] && ([h] + s)[j] == s[j - 1];
      }
    }
  }

  /** The head of a sorted list sorts before every later element. */
  lemma HeadIsLeast(s: seq<Message>)
    requires Sorted(s) && |s| > 0
    ensures forall x :: x in s[1..] ==> TimestampLe(s[0].timestamp, x.timestamp)
  {
    forall x | x in s[1..]
      ensures TimestampLe(s[0].timestamp, x.timestamp)
    {
      var j :| 0 <= j < |s[1..]| && s[1..][j] == x;
      assert s[j + 1] == x;
    }
  }

  /** A message that sorts strictly before the head of a sorted list sorts
      before all of it. */
  lemma BeforeHeadBeforeAll(m: Message, s: seq<Message>)
    requires Sorted(s) && |s| > 0
    requires !TimestampLe(s[0].timestamp, m.timestamp)
    ensures forall x :: x in s ==> TimestampLe(m.timestamp, x.timestamp)
  {
    TimestampLeIsTotalOrder(m.timestamp, s[0].timestamp, s[0].timestamp);
    forall x | x in s
      ensures TimestampLe(m.timestamp, x.timestamp)
    {
      var j :| 0 <= j < |s| && s[j] == x;
      TimestampLeIsTotalOrder(m.timestamp, s[0].timestamp, s[j].timestamp);
    }
  }

  /** Inserts `m` into sorted `s` after every message whose timestamp is not
      later than its own. */
  function Insert(m: Message, s: seq<Message>): (r: seq<Message>)
    requires Sorted(s)
    ensures Sorted(r)
    ensures multiset(r) == multiset(s) + multiset{m}
    ensures forall x :: x in r <==> x in s || x == m
  {
    if |s| == 0 then [m]
    else if !TimestampLe(s[0].timestamp, m.timestamp) then
      BeforeHeadBeforeAll(m, s);
      ConsSorted(m, s);
      [m] + s
    else
      var tail := s[1..];
      assert Sorted(tail);
      var rest := Insert(m, tail);
      assert s == [s[0]] + tail;
      HeadIsLeast(s);
      ConsSorted(s[0], rest);
      [s[0]] + rest
  }

  /** When `m` does not sort before `s[0]`, it is inserted behind it. */
  lemma InsertBehindHead(m: Message, s: seq<Message>)
    requires Sorted(s) && |s| > 0
    requires TimestampLe(s[0].timestamp, m.timestamp)
    ensures Sorted(s[1..])
    ensures Insert(m, s) == [s[0]] + Insert(m, s[1..])
  {
    assert Sorted(s[1..]);
  }

  /** No message of sorted `s` shares the timestamp of a message that sorts
      strictly before `s[0]`. */
  lemma EarlierThanAllHasNoTies(m: Message, s: seq<Message>)
    requires Sorted(s) && |s| > 0
    requires !TimestampLe(s[0].timestamp, m.timestamp)
    ensures Ties(s, m.timestamp) == []
  {
    forall j | 0 <= j < |s|
      ensures s[j].timestamp != m.timestamp
    {
      if s[j].timestamp == m.timestamp {
        TimestampLeIsTotalOrder(s[0].timestamp, s[j].timestamp, m.timestamp);
      }
    }
    NoTies(s, m.timestamp);
  }

  /** Inserting `m` puts it after every message with the same timestamp and
      leaves the order of the others alone. */
  lemma {:induction false} InsertKeepsTies(m: Message, s: seq<Message>, t: Option<string>)
    requires Sorted(s)
    ensures Ties(Insert(m, s), t) == Ties(s, t) + TieOf(m, t)
  {
    if |s| == 0 || !TimestampLe(s[0].timestamp, m.timestamp) {
      InsertInFrontKeepsTies(m, s, t);
    } else {
      var tail := s[1..];
      InsertBehindHead(m, s);
      InsertKeepsTies(m, tail, t);
      ConsTies(s[0], tail, Insert(m, tail), TieOf(m, t), t);
      assert s == [s[0]] + tail;
    }
  }

  /** The case of `InsertKeepsTies` where `m` goes in front. */
  lemma InsertInFrontKeepsTies(m: Message, s: seq<Message>, t: Option<string>)
    requires Sorted(s)
    requires |s| == 0 || !TimestampLe(s[0].timestamp, m.timestamp)
    ensures Ties(Insert(m, s), t) == Ties(s, t) + TieOf(m, t)
  {
    assert Insert(m, s) == [m] + s;
    TiesCons(m, s, t);
    if m.timestamp == t {
      if |s| > 0 {
        EarlierThanAllHasNoTies(m, s);
      }
      assert Ties(s, t) == [];
      assert TieOf(m, t) + [] == [] + TieOf(m, t);
    } else {
      assert TieOf(m, t) == [];
      assert [] + Ties(s, t) == Ties(s, t) + [];
    }
  }

  /** Putting the same message in front of two lists whose ties differ by
      `extra` at the end keeps that difference. */
  lemma ConsTies(h: Message, a: seq<Message>, b: seq<Message>, extra: seq<Message>, t: Option<string>)
    requires Ties(b, t) == Ties(a, t) + extra
    ensures Ties([h] + b, t) == Ties([h] + a, t) + extra
  {
    calc {
      Ties([h] + b, t);
      { TiesCons(h, b, t); }
      TieOf(h, t) + Ties(b, t);
      TieOf(h, t) + (Ties(a, t) + extra);
      (TieOf(h, t) + Ties(a, t)) + extra;
      { TiesCons(h, a, t); }
      Ties([h] + a, t) + extra;
    }
  }

  /** `sortedBy { it.timestamp }`: a stable sort, built by inserting the
      messages one by one in their original order. */
  function SortByTimestamp(s: seq<Message>): (r: seq<Message>)
    ensures Sorted(r)
    ensures multiset(r) == multiset(s)
    decreases |s|
  {
    if |s| == 0 then []
    else
      assert s == s[..|s| - 1] + [s[|s| - 1]];
      Insert(s[|s| - 1], SortByTimestamp(s[..|s| - 1]))
  }

  /** The sort is stable: messages with equal timestamps keep their
      relative order. */
  lemma {:induction false} SortIsStable(s: seq<Message>, t: Option<string>)
    ensures Ties(SortByTimestamp(s), t) == Ties(s, t)
    decreases |s|
  {
    if |s| > 0 {
      var prefix, last := s[..|s| - 1], s[|s| - 1];
      assert s == prefix + [last];
      var sorted := SortByTimestamp(prefix);
      assert SortByTimestamp(s) == Insert(last, sorted);
      SortIsStable(prefix, t);
      InsertKeepsTies(last, sorted, t);
      TiesConcat(prefix, [last], t);
      TiesCons(last, [], t);
      assert [last] + [] == [last];
    }
  }
}

=== FILE: seqs.dfy ===
/** Kotlin's list `filter` and `toSet().toList()`, with the facts about them
    the rest of the model uses. */
module Seqs {

  /** `a` is `b` with some elements dropped and the rest kept in order. */
  predicate IsSubsequence<T(==)>(a: seq<T>, b: seq<T>)
    decreases |b|
  {
    |a| == 0
    || (|b| > 0 && ((a[0] == b[0] && IsSubsequence(a[1..], b[1..])) || IsSubsequence(a, b[1..])))
  }

  /** `s.filter(p)`: the elements satisfying `p`, in their original order. */
  function Filter<T(==,!new)>(s: seq<T>, p: T -> bool): (r: seq<T>)
    ensures |r| <= |s|
    ensures forall x :: x in r <==> x in s && p(x)
    ensures IsSubsequence(r, s)
  {
    if |s| == 0 then []
    else if p(s[0]) then [s[0]] + Filter(s[1..], p)
    else Filter(s[1..], p)
  }

  /** Filtering by a predicate and by its negation splits `s` into two parts
      that together hold every element exactly as often as `s` does. */
  lemma {:induction false} FilterPartition<T(!new)>(s: seq<T>, p: T -> bool, q: T -> bool)
    requires forall x :: q(x) == !p(x)
    ensures multiset(Filter(s, p)) + multiset(Filter(s, q)) == multiset(s)
  {
    if |s| > 0 {
      FilterPartition(s[1..], p, q);
      assert s == [s[0]] + s[1..];
    }
  }

  /** No element occurs twice. */
  predicate NoDuplicates<T(==)>(s: seq<T>)
  {
    forall i, j :: 0 <= i < j < |s| ==> s[i] != s[j]
  }

  /** The position of the first occurrence of `x` in `xs`. */
  function FirstIndex<T(==)>(xs: seq<T>, x: T): (i: nat)
    requires x in xs
    ensures i < |xs| && xs[i] == x
    ensures x !in xs[..i]
  {
    if xs[0] == x then 0
    else
      assert x in xs[1..];
      var j := FirstIndex(xs[1..], x);
      assert xs[..j + 1] == [xs[0]] + xs[1..][..j];
      1 + j
  }

  /** `xs.toSet().toList()`: a linked hash set keeps the first occurrence of
      each element, in insertion order. */
  function Dedup<T(==,!new)>(xs: seq<T>): (r: seq<T>)
    ensures forall x :: x in r <==> x in xs
    ensures NoDuplicates(r)
    decreases |xs|
  {
    if |xs| == 0 then []
    else
      var prefix := xs[..|xs| - 1];
      var last := xs[|xs| - 1];
      assert xs == prefix + [last];
      var d := Dedup(prefix);
      if last in d then d else d + [last]
  }

  /** Appending elements does not move an existing first occurrence. */
  lemma {:induction false} FirstIndexOfPrefix<T>(a: seq<T>, b: seq<T>, x: T)
    requires x in a
    ensures FirstIndex(a + b, x) == FirstIndex(a, x)
  {
    if a[0] != x {
      assert (a + b)[1..] == a[1..] + b;
      FirstIndexOfPrefix(a[1..], b, x);
    }
  }

  /** `Dedup` lists the distinct elements in the order of their first
      occurrence in the input. */
  lemma {:induction false} DedupKeepsFirstOccurrenceOrder<T(!new)>(xs: seq<T>)
    ensures forall i, j :: 0 <= i < j < |Dedup(xs)| ==>
      FirstIndex(xs, Dedup(xs)[i]) < FirstIndex(xs, Dedup(xs)[j])
    decreases |xs|
  {
    if |xs| > 0 {
      var prefix := xs[..|xs| - 1];
      var last := xs[|xs| - 1];
      assert xs == prefix + [last];
      var d := Dedup(prefix);
      DedupKeepsFirstOccurrenceOrder(prefix);
      forall y | y in d
        ensures FirstIndex(xs, y) == FirstIndex(prefix, y) < |prefix|
      {
        FirstIndexOfPrefix(prefix, [last], y);
      }
      var r := Dedup(xs);
      if last !in d {
        assert r == d + [last];
        assert last !in prefix;
        assert FirstIndex(xs, last) == |prefix|;
      } else {
        assert r == d;
      }
      forall i, j | 0 <= i < j < |r|
        ensures FirstIndex(xs, r[i]) < FirstIndex(xs, r[j])
      {
        assert r[i] == d[i];
        if j < |d| {
          assert r[j] == d[j];
        }
      }
    }
  }
}

=== FILE: session.dfy ===
/** Signing in, signing up, signing out and profile writes of the chat view
    model, with the authentication service and the database lookups taken
    as the results they delivered. */
module Session {
  import opened Kotlin
  import opened Events
  import opened DataTypes
  import opened ViewModelState
  import opened ChatSync

  /** What the authentication service answered. */
  datatype AuthResult = Authenticated(uid: Option<string>) | AuthFailed(error: Exception)

  /** The view model as constructed: signed in exactly when the
      authentication service already has a user, whose profile listener is
      then registered. */
  function Init(currentUid: Option<string>): (r: VmState)
    ensures r.signedIn <==> currentUid.Some?
    ensures currentUid.Some? ==> r.profileListeners == [currentUid.value] && r.inProgress
    ensures currentUid.None? ==> r.profileListeners == [] && !r.inProgress
    ensures r.userData.None? && r.popupNotification.None?
    ensures r.chats == [] && r.chatMessages == [] && r.status == []
  {
    var st := VmState(inProgress := false, popupNotification := None, userData := None,
                      signedIn := currentUid.Some?, chats := [], chatMessages := [], status := [],
                      profileListeners := [], chatListListeners := [], messageListeners := [],
                      currentChatMessagesListener := None, statusFeeds := [], statusQueries := []);
    if currentUid.Some? then GetUserData(st, currentUid.value) else st
  }

  /** `onLogin(email, password)`. An empty field is rejected before the
      authentication service is asked; a failure is reported by both the
      completion and the failure callback. */
  function OnLogin(st: VmState, email: string, password: string, signIn: AuthResult): (r: VmState)
    ensures email == "" || password == "" ==>
      && Announces(r, "Please fill in all fields : ")
      && r.signedIn == st.signedIn
      && r.profileListeners == st.profileListeners
    ensures email != "" && password != "" && signIn.Authenticated? ==>
      && r.signedIn
      && (signIn.uid.Some? ==> r.profileListeners == st.profileListeners + [signIn.uid.value] && r.inProgress)
      && (signIn.uid.None? ==> r.profileListeners == st.profileListeners && !r.inProgress)
      && r.popupNotification == st.popupNotification
    ensures email != "" && password != "" && signIn.AuthFailed? ==>
      && Announces(r, "Login failed: " + ErrorMsg(Some(signIn.error)))
      && r.signedIn == st.signedIn
      && !r.inProgress
    ensures r.userData == st.userData
  {
    if email == "" || password == "" then
      assert "Please fill in all fields " + ": " == "Please fill in all fields : ";
      HandleException(st, None, "Please fill in all fields ")
    else
      var st1 := st.(inProgress := true);
      match signIn
      case Authenticated(uid) =>
        var st2 := st1.(signedIn := true, inProgress := false);
        if uid.Some? then GetUserData(st2, uid.value) else st2
      case AuthFailed(e) =>
        assert "Login failed" + ": " == "Login failed: ";
        HandleException(HandleException(st1, Some(e), "Login failed"), Some(e), "Login failed")
  }

  /** An empty email or password short-circuits: the outcome does not
      depend on what the authentication service would have answered. */
  lemma LoginValidationShortCircuits(st: VmState, email: string, password: string,
                                     a: AuthResult, b: AuthResult)
    requires email == "" || password == ""
    ensures OnLogin(st, email, password, a) == OnLogin(st, email, password, b)
  {
  }

  /** The profile `createOrUpdateProfile` writes: every supplied field wins,
      every missing one falls back to the in-memory profile. */
  function MergedProfile(st: VmState, uid: Option<string>, name: Option<string>,
                         number: Option<string>, imageUrl: Option<string>): UserData
  {
    NewUserData(uid,
      Elvis(name, MyField(st, (u: UserData) => u.name)),
      Elvis(number, MyField(st, (u: UserData) => u.number)),
      Elvis(imageUrl, MyField(st, (u: UserData) => u.imageUrl)))
  }

  /** `createOrUpdateProfile(name, number, imageUrl)` for the signed-in
      `uid`. `lookup` says whether the profile document exists; an existing
      one is updated with `toMap` of the merged profile, a missing one is set
      and then listened to. */
  function CreateOrUpdateProfile(st: VmState, uid: Option<string>, name: Option<string>,
                                 number: Option<string>, imageUrl: Option<string>,
                                 lookup: Remote<bool>, updateError: Option<Exception>): (r: Step)
    ensures |r.writes| <= 1
    ensures |r.writes| == 1 <==> uid.Some? && lookup.Done?
    ensures |r.writes| == 1 ==>
      && (r.writes[0].SetUser? || r.writes[0].UpdateUser?)
      && r.writes[0].uid == uid.value
      && (r.writes[0].UpdateUser? <==> lookup.value)
      && WrittenProfile(r.writes[0]).Some?
    ensures |r.writes| == 1 ==> var u := WrittenProfile(r.writes[0]).value;
      && u.userId == uid
      && u.name == (if name.Some? then name else MyField(st, (v: UserData) => v.name))
      && u.number == (if number.Some? then number else MyField(st, (v: UserData) => v.number))
      && u.imageUrl == (if imageUrl.Some? then imageUrl else MyField(st, (v: UserData) => v.imageUrl))
      && u.status == Some("") && u.statusImg == Some(" ") && u.contacts == Some([])
    ensures uid.Some? && lookup.Failed? ==> Announces(r.state, ErrorMessage(Some(lookup.error), "Cannot retrieve user"))
    ensures uid.Some? && lookup == Done(true) && updateError.Some? ==>
      Announces(r.state, ErrorMessage(updateError, "Cannot update user"))
    ensures uid.Some? && lookup == Done(false) ==>
      r.state.profileListeners == st.profileListeners + [uid.value]
    ensures r.state.userData == st.userData && r.state.signedIn == st.signedIn
  {
    var record := MergedProfile(st, uid, name, number, imageUrl);
    if uid.None? then Step(st, [])
    else
      var st1 := st.(inProgress := true);
      match lookup
      case Failed(e) => Step(HandleException(st1, Some(e), "Cannot retrieve user"), [])
      case Done(found) =>
        if found then
          ToMapRoundTrip(record);
          var st2 := if updateError.Some? then HandleException(st1, updateError, "Cannot update user")
                     else st1.(inProgress := false);
          Step(st2, [UpdateUser(uid.value, ToMap(record))])
        else
          Step(GetUserData(st1.(inProgress := false), uid.value), [SetUser(uid.value, record)])
  }

  /** Whether the profile document existed or not, the write stores the
      same fields, and an update overwrites whatever was stored before. */
  lemma ProfileWriteIndependentOfExistence(st: VmState, uid: string, name: Option<string>,
                                           number: Option<string>, imageUrl: Option<string>,
                                           updateError: Option<Exception>, stored: UserData)
    ensures var updated := CreateOrUpdateProfile(st, Some(uid), name, number, imageUrl, Done(true), updateError);
      var created := CreateOrUpdateProfile(st, Some(uid), name, number, imageUrl, Done(false), updateError);
      && updated.writes[0].UpdateUser? && created.writes[0].SetUser?
      && ApplyUpdate(stored, updated.writes[0].fields) == created.writes[0].user
  {
    var record := MergedProfile(st, Some(uid), name, number, imageUrl);
    UpdateWithToMapStoresRecord(stored, record);
  }

  /** `updateProfileData(name, number, status)`: writes the given name and
      number, keeps the in-memory image, and ignores `status`, whose stored
      field is reset to the empty default. */
  function UpdateProfileData(st: VmState, uid: Option<string>, name: string, number: string,
                             status: string, lookup: Remote<bool>,
                             updateError: Option<Exception>): (r: Step)
    ensures |r.writes| == 1 <==> uid.Some? && lookup.Done?
    ensures |r.writes| == 1 ==> WrittenProfile(r.writes[0]).Some?
    ensures |r.writes| == 1 ==> var u := WrittenProfile(r.writes[0]).value;
      && u.name == Some(name) && u.number == Some(number)
      && u.imageUrl == MyField(st, (v: UserData) => v.imageUrl)
      && u.status == Some("")
  {
    CreateOrUpdateProfile(st, uid, Some(name), Some(number), None, lookup, updateError)
  }

  /** Some profile already carries the number. */
  predicate NumberTaken(profiles: seq<UserData>, number: string)
  {
    exists p :: p in profiles && p.number == Some(number)
  }

  /** `onSignUp(name, number, email, password)`. `profiles` is the profile
      collection the uniqueness query runs on, `create` the answer to the
      account creation, `lookup` and `updateError` what the profile write
      that follows a successful creation receives. */
  function OnSignUp(st: VmState, name: string, number: string, email: string, password: string,
                    profiles: Remote<seq<UserData>>, create: AuthResult,
                    lookup: Remote<bool>, updateError: Option<Exception>): (r: Step)
    ensures name == "" || number == "" || email == "" || password == "" ==>
      && r.writes == []
      && Announces(r.state, "Please fill in all fields: ")
      && r.state.signedIn == st.signedIn
    ensures name != "" && number != "" && email != "" && password != "" && profiles.Failed? ==>
      && r.writes == []
      && Announces(r.state, ErrorMessage(Some(profiles.error), DefaultCustomMessage))
      && r.state.signedIn == st.signedIn
    ensures name != "" && number != "" && email != "" && password != "" && profiles.Done?
            && NumberTaken(profiles.value, number) ==>
      && r.writes == []
      && Announces(r.state, "number already exists: ")
      && r.state.signedIn == st.signedIn
    ensures r.state.signedIn != st.signedIn || |r.writes| > 0 ==>
      && name != "" && number != "" && email != "" && password != ""
      && profiles.Done? && !NumberTaken(profiles.value, number)
      && create.Authenticated?
    ensures name != "" && number != "" && email != "" && password != "" && profiles.Done?
            && !NumberTaken(profiles.value, number) && create.Authenticated? ==>
      && r.state.signedIn
      && (create.uid.Some? && lookup.Done? ==>
            && |r.writes| == 1
            && !r.writes[0].SetChat?
            && r.writes[0].uid == create.uid.value
            && WrittenProfile(r.writes[0]).Some?
            && WrittenProfile(r.writes[0]).value.name == Some(name)
            && WrittenProfile(r.writes[0]).value.number == Some(number))
    ensures name != "" && number != "" && email != "" && password != "" && profiles.Done?
            && !NumberTaken(profiles.value, number) && create.AuthFailed? ==>
      && r.writes == []
      && Announces(r.state, "Signup failed: " + ErrorMsg(Some(create.error)))
  {
    if name == "" || number == "" || email == "" || password == "" then
      assert "Please fill in all fields" + ": " == "Please fill in all fields: ";
      Step(HandleException(st, None, "Please fill in all fields"), [])
    else
      var st1 := st.(inProgress := true);
      match profiles
      case Failed(e) => Step(HandleException(st1, Some(e), DefaultCustomMessage), [])
      case Done(existing) =>
        if NumberTaken(existing, number) then
          assert "number already exists" + ": " == "number already exists: ";
          Step(HandleException(st1, None, "number already exists"), [])
        else
          match create
          case AuthFailed(e) =>
            assert "Signup failed" + ": " == "Signup failed: ";
            Step(HandleException(st1, Some(e), "Signup failed"), [])
          case Authenticated(uid) =>
            CreateOrUpdateProfile(st1.(signedIn := true, inProgress := false), uid, Some(name),
                                  Some(number), None, lookup, updateError)
  }

  /** An empty field, a failed uniqueness query or a number already taken
      short-circuits: the outcome does not depend on what the account
      creation or the profile write that would follow it would have
      received. */
  lemma SignUpShortCircuits(st: VmState, name: string, number: string, email: string,
                            password: string, profiles: Remote<seq<UserData>>,
                            create1: AuthResult, lookup1: Remote<bool>, updateError1: Option<Exception>,
                            create2: AuthResult, lookup2: Remote<bool>, updateError2: Option<Exception>)
    requires name == "" || number == "" || email == "" || password == "" || profiles.Failed?
             || (profiles.Done? && NumberTaken(profiles.value, number))
    ensures OnSignUp(st, name, number, email, password, profiles, create1, lookup1, updateError1)
         == OnSignUp(st, name, number, email, password, profiles, create2, lookup2, updateError2)
  {
  }

  /** `onLogout()`: signs out, forgets the profile and the chat list, and
      announces it. The open chat's messages, the statuses and every
      registered listener are left as they were. */
  function OnLogout(st: VmState): (r: VmState)
    ensures !r.signedIn && r.userData.None? && r.chats == []
    ensures Announces(r, "Logged out")
    ensures r.chatMessages == st.chatMessages && r.status == st.status
    ensures r.profileListeners == st.profileListeners && r.messageListeners == st.messageListeners
    ensures r.chatListListeners == st.chatListListeners && r.statusQueries == st.statusQueries
    ensures r.inProgress == st.inProgress
    ensures r.(signedIn := st.signedIn, userData := st.userData,
               popupNotification := st.popupNotification, chats := st.chats) == st
  {
    st.(signedIn := false, userData := None, popupNotification := Some(New("Logged out")), chats := [])
  }

  /** The logout notice is shown once: the first read returns it, the next
      one nothing. */
  lemma LogoutNoticeShownOnce(st: VmState)
    ensures var e := OnLogout(st).popupNotification.value;
      && GetContentOrNull(e).1 == Some("Logged out")
      && GetContentOrNull(GetContentOrNull(e).0).1.None?
  {
  }

  /** A profile snapshot: an error is reported; a delivered document (null
      when it does not exist) replaces the in-memory profile, clears the
      progress flag and registers one more chat-list listener. */
  function OnProfileSnapshot(st: VmState, error: Option<Exception>,
                             value: Option<Option<UserData>>): (r: VmState)
    ensures value.Some? ==> r.userData == value.value && !r.inProgress
    ensures value.Some? ==> r.chatListListeners == st.chatListListeners + [MyUserId(r)]
    ensures value.None? ==> r.userData == st.userData && r.chatListListeners == st.chatListListeners
    ensures error.Some? ==> Announces(r, ErrorMessage(error, "Cannot retrieve user data"))
    ensures error.None? ==> r.popupNotification == st.popupNotification
    ensures r.(userData := st.userData, chatListListeners := st.chatListListeners,
               popupNotification := st.popupNotification, inProgress := st.inProgress) == st
  {
    var st1 := if error.Some? then HandleException(st, error, "Cannot retrieve user data") else st;
    if value.Some? then PopulateChats(st1.(userData := value.value, inProgress := false)) else st1
  }
}

=== FILE: status_feed.dfy ===
/** `populateStatuses()`: a chat listener derives the current user's
    connections, and every chat snapshot opens one more status query for
    the statuses of those connections posted within the last 24 hours. */
module StatusFeed {
  import opened Kotlin
  import opened DataTypes
  import opened Seqs
  import opened ViewModelState

  /** `24*60*60*1000`: one day in milliseconds. */
  const StatusWindowMillis: int := 24 * 60 * 60 * 1000

  /** The participant of `c` who is not `me`: user2 when user1 is `me`,
      user1 otherwise. */
  function OtherParticipant(c: ChatData, me: Option<string>): Option<string>
  {
    if c.user1.userId == me then c.user2.userId else c.user1.userId
  }

  /** `currentConnections`: the current user's id, then one id per chat, in
      chat order. */
  function Connections(me: Option<string>, chats: seq<ChatData>): (r: seq<Option<string>>)
    ensures |r| == 1 + |chats|
    ensures r[0] == me
    ensures forall i :: 0 <= i < |chats| ==> r[i + 1] == OtherParticipant(chats[i], me)
  {
    if |chats| == 0 then [me]
    else
      var rest := Connections(me, chats[..|chats| - 1]);
      rest + [OtherParticipant(chats[|chats| - 1], me)]
  }

  /** Every chat the current user takes part in contributes the other
      participant, whichever slot each of them holds; a chat with oneself
      contributes oneself. */
  lemma {:induction false} ChatPartnersAreConnections(me: Option<string>, chats: seq<ChatData>, c: ChatData)
    requires c in chats
    ensures c.user1.userId == me ==> c.user2.userId in Connections(me, chats)
    ensures c.user2.userId == me ==> c.user1.userId in Connections(me, chats)
    ensures me in Connections(me, chats)
  {
    var r := Connections(me, chats);
    var i :| 0 <= i < |chats| && chats[i] == c;
    assert r[i + 1] == OtherParticipant(c, me);
  }

  /** Every connection is the current user or the partner in some chat. */
  lemma ConnectionsComeFromChats(me: Option<string>, chats: seq<ChatData>, id: Option<string>)
    requires id in Connections(me, chats)
    ensures id == me || exists c :: c in chats && id == OtherParticipant(c, me)
  {
    var r := Connections(me, chats);
    var k :| 0 <= k < |r| && r[k] == id;
    if k > 0 {
      assert chats[k - 1] in chats;
    }
  }

  /** A status the stage-two query admits: a timestamp strictly after the
      cutoff and an author among the connections. */
  predicate Admitted(s: Status, q: StatusQuery)
  {
    s.timestamp.Some? && s.timestamp.value > q.cutoff && s.user.userId in q.connections
  }

  /** The statuses a stage-two query delivers from the status collection,
      in the collection's delivery order. */
  function VisibleStatuses(collection: seq<Status>, q: StatusQuery): (r: seq<Status>)
    ensures forall s :: s in r <==> s in collection && Admitted(s, q)
    ensures IsSubsequence(r, collection)
  {
    Filter(collection, AdmittedBy(q))
  }

  function AdmittedBy(q: StatusQuery): Status -> bool
  {
    (s: Status) => Admitted(s, q)
  }

  /** The 24-hour window: with the cutoff taken at `now`, a connection's
      status posted 23 hours earlier is shown and one posted 25 hours
      earlier is not; one posted exactly at the cutoff is not shown either. */
  lemma StatusWindow(now: int, connections: seq<Option<string>>, author: ChatUser,
                     img: Option<string>)
    requires author.userId in connections
    ensures var q := StatusQuery(now - StatusWindowMillis, connections);
      var recent := Status(author, img, None, Some(now - 23 * 60 * 60 * 1000));
      var aged := Status(author, img, None, Some(now - 25 * 60 * 60 * 1000));
      var edge := Status(author, img, None, Some(now - StatusWindowMillis));
      VisibleStatuses([recent, aged, edge], q) == [recent]
  {
    var q := StatusQuery(now - StatusWindowMillis, connections);
    var recent := Status(author, img, None, Some(now - 23 * 60 * 60 * 1000));
    var aged := Status(author, img, None, Some(now - 25 * 60 * 60 * 1000));
    var edge := Status(author, img, None, Some(now - StatusWindowMillis));
    var p := AdmittedBy(q);
    assert [recent, aged, edge][1..] == [aged, edge];
    assert [aged, edge][1..] == [edge];
    assert [edge][1..] == [];
    assert Filter([edge], p) == [];
    assert Filter([aged, edge], p) == [];
    assert Filter([recent, aged, edge], p) == [recent];
  }

  /** `populateStatuses()` at time `now`: the cutoff is taken once, here,
      and captured by the stage-one chat listener it registers. */
  function PopulateStatuses(st: VmState, now: int): (r: VmState)
    ensures r.statusFeeds == st.statusFeeds + [now - 86_400_000]
    ensures r.(statusFeeds := st.statusFeeds) == st
  {
    st.(statusFeeds := st.statusFeeds + [now - StatusWindowMillis])
  }

  /** A snapshot of the stage-one chat listener `feed`: an error is
      reported; a delivered snapshot opens one more stage-two query with the
      feed's cutoff and the connections derived from the chats. No earlier
      query is closed. */
  function OnStatusChatsSnapshot(st: VmState, feed: nat, error: Option<Exception>,
                                 value: Option<seq<ChatData>>): (r: VmState)
    requires feed < |st.statusFeeds|
    ensures value.Some? ==> |r.statusQueries| == |st.statusQueries| + 1
    ensures value.Some? ==> r.statusQueries[..|st.statusQueries|] == st.statusQueries
    ensures value.Some? ==> var q := r.statusQueries[|st.statusQueries|];
      && q.cutoff == st.statusFeeds[feed]
      && |q.connections| == 1 + |value.value|
      && q.connections[0] == MyUserId(st)
      && q == StatusQuery(st.statusFeeds[feed], Connections(MyUserId(st), value.value))
    ensures value.None? ==> r.statusQueries == st.statusQueries
    ensures error.Some? ==> Announces(r, ErrorMessage(error, DefaultCustomMessage))
    ensures error.None? ==> r.popupNotification == st.popupNotification
    ensures r.status == st.status && r.statusFeeds == st.statusFeeds
    ensures r.(statusQueries := st.statusQueries, popupNotification := st.popupNotification,
               inProgress := st.inProgress) == st
    ensures error.None? ==> r.(statusQueries := st.statusQueries) == st
  {
    var st1 := if error.Some? then HandleException(st, error, DefaultCustomMessage) else st;
    if value.Some? then
      var q := StatusQuery(st.statusFeeds[feed], Connections(MyUserId(st1), value.value));
      st1.(statusQueries := st1.statusQueries + [q])
    else st1
  }

  /** A snapshot of stage-two query `query`, taken of the status
      collection: an error is reported; a delivered snapshot replaces the
      status list with the statuses that query admits. Any registered query
      may deliver, not only the newest. */
  function OnStatusSnapshot(st: VmState, query: nat, error: Option<Exception>,
                            collection: Option<seq<Status>>): (r: VmState)
    requires query < |st.statusQueries|
    ensures collection.Some? ==> forall s :: s in r.status <==>
      s in collection.value && Admitted(s, st.statusQueries[query])
    ensures collection.Some? ==> IsSubsequence(r.status, collection.value)
    ensures collection.None? ==> r.status == st.status
    ensures error.Some? ==> Announces(r, ErrorMessage(error, DefaultCustomMessage))
    ensures r.statusQueries == st.statusQueries
    ensures error.None? ==> r.popupNotification == st.popupNotification
    ensures r.(status := st.status, popupNotification := st.popupNotification,
               inProgress := st.inProgress) == st
  {
    var st1 := if error.Some? then HandleException(st, error, DefaultCustomMessage) else st;
    if collection.Some? then st1.(status := VisibleStatuses(collection.value, st.statusQueries[query]))
    else st1
  }

  /** Each chat snapshot leaves one more status query registered: after two
      snapshots of the same feed, the query opened for the first one can
      still replace the status list, with the first snapshot's
      connections. */
  lemma StatusQueriesAccumulate(st: VmState, feed: nat, chats1: seq<ChatData>,
                                chats2: seq<ChatData>, collection: seq<Status>)
    requires feed < |st.statusFeeds|
    ensures var st1 := OnStatusChatsSnapshot(st, feed, None, Some(chats1));
      var st2 := OnStatusChatsSnapshot(st1, feed, None, Some(chats2));
      var n := |st.statusQueries|;
      && |st2.statusQueries| == n + 2
      && st2.statusQueries[n].connections == Connections(MyUserId(st), chats1)
      && st2.statusQueries[n + 1].connections == Connections(MyUserId(st), chats2)
      && OnStatusSnapshot(st2, n, None, Some(collection)).status
         == VisibleStatuses(collection, StatusQuery(st.statusFeeds[feed], Connections(MyUserId(st), chats1)))
  {
  }
}

=== FILE: status_list.dfy ===
/** The shaping the status-list screen applies to the published status list:
    the current user's statuses are split from everybody else's, the
    current user gets one row built from their first status, and every
    other author gets exactly one row. */
module StatusListScreen {
  import opened Kotlin
  import opened Seqs
  import opened DataTypes
  import opened Destinations

  /** `it.user?.userId == userData?.userId` */
  function ByMe(me: Option<string>): Status -> bool
  {
    (s: Status) => s.user.userId == me
  }

  /** `it.user?.userId != userData?.userId` */
  function ByOthers(me: Option<string>): Status -> bool
  {
    (s: Status) => s.user.userId != me
  }

  /** `myStatuses` */
  function MyStatuses(statuses: seq<Status>, me: Option<string>): (r: seq<Status>)
    ensures forall s :: s in r <==> s in statuses && s.user.userId == me
    ensures IsSubsequence(r, statuses)
  {
    Filter(statuses, ByMe(me))
  }

  /** `otherStatuses` */
  function OtherStatuses(statuses: seq<Status>, me: Option<string>): (r: seq<Status>)
    ensures forall s :: s in r <==> s in statuses && s.user.userId != me
    ensures IsSubsequence(r, statuses)
  {
    Filter(statuses, ByOthers(me))
  }

  /** The two lists partition the status list: together they hold every
      status exactly as often as the list does, and no status is in both. */
  lemma StatusesPartition(statuses: seq<Status>, me: Option<string>)
    ensures multiset(MyStatuses(statuses, me)) + multiset(OtherStatuses(statuses, me)) == multiset(statuses)
    ensures forall s :: s in statuses ==> (s in MyStatuses(statuses, me) <==> s !in OtherStatuses(statuses, me))
  {
    FilterPartition(statuses, ByMe(me), ByOthers(me));
  }

  /** `otherStatuses.map { it.user }` */
  function Authors(statuses: seq<Status>): (r: seq<ChatUser>)
    ensures |r| == |statuses|
    ensures forall i :: 0 <= i < |statuses| ==> r[i] == statuses[i].user
  {
    seq(|statuses|, i requires 0 <= i < |statuses| => statuses[i].user)
  }

  /** `uniqueUsers`: the authors of the other users' statuses, each whole
      author value listed once. */
  function UniqueUsers(statuses: seq<Status>, me: Option<string>): (r: seq<ChatUser>)
    ensures forall u :: u in r <==> exists s :: s in statuses && s.user.userId != me && s.user == u
    ensures NoDuplicates(r)
    ensures forall u :: u in r ==> u.userId != me
  {
    var others := OtherStatuses(statuses, me);
    var authors := Authors(others);
    assert forall u :: u in authors <==> exists s :: s in others && s.user == u by {
      forall u | u in authors
        ensures exists s :: s in others && s.user == u
      {
        var i :| 0 <= i < |authors| && authors[i] == u;
        assert others[i] in others;
      }
      forall s | s in others
        ensures s.user in authors
      {
        var i :| 0 <= i < |others| && others[i] == s;
        assert authors[i] == s.user;
      }
    }
    Dedup(authors)
  }

  /** The rows of `uniqueUsers` come in the order in which their authors
      first appear among the other users' statuses. */
  lemma UniqueUsersInFirstAppearanceOrder(statuses: seq<Status>, me: Option<string>)
    ensures var authors := Authors(OtherStatuses(statuses, me));
      var r := UniqueUsers(statuses, me);
      forall i, j :: 0 <= i < j < |r| ==> FirstIndex(authors, r[i]) < FirstIndex(authors, r[j])
  {
    DedupKeepsFirstOccurrenceOrder(Authors(OtherStatuses(statuses, me)));
  }

  /** The "my status" row: shown only when the current user has a status,
      and built from the author of the first one. */
  function MyStatusRow(statuses: seq<Status>, me: Option<string>): (r: Option<ChatUser>)
    ensures r.Some? <==> exists s :: s in statuses && s.user.userId == me
    ensures r.Some? ==> r.value.userId == me
    ensures r.Some? ==> exists i :: (0 <= i < |statuses| && statuses[i].user == r.value
                                     && forall j :: 0 <= j < i ==> statuses[j].user.userId != me)
  {
    var mine := MyStatuses(statuses, me);
    if |mine| == 0 then None
    else
      assert mine[0] in mine;
      FirstByMeIsFirstOfMine(statuses, me);
      Some(mine[0].user)
  }

  /** The first element of `myStatuses` is the first status in the list
      whose author is the current user. */
  lemma {:induction false} FirstByMeIsFirstOfMine(statuses: seq<Status>, me: Option<string>)
    requires |MyStatuses(statuses, me)| > 0
    ensures exists i :: (0 <= i < |statuses| && statuses[i] == MyStatuses(statuses, me)[0]
                         && forall j :: 0 <= j < i ==> statuses[j].user.userId != me)
  {
    if statuses[0].user.userId != me {
      assert MyStatuses(statuses, me) == MyStatuses(statuses[1..], me);
      FirstByMeIsFirstOfMine(statuses[1..], me);
      var i :| 0 <= i < |statuses[1..]| && statuses[1..][i] == MyStatuses(statuses, me)[0]
        && forall j :: 0 <= j < i ==> statuses[1..][j].user.userId != me;
      assert statuses[i + 1] == MyStatuses(statuses, me)[0];
    } else {
      assert MyStatuses(statuses, me)[0] == statuses[0];
    }
  }

  /** Tapping the "my status" row requests the current user's status route
      string; tapping a row of `uniqueUsers` never requests that string,
      unless one of the ids is null and the other is the text "null". As
      registered, no destination matches either request. */
  lemma StatusRowRoutes(statuses: seq<Status>, me: Option<string>)
    ensures MyStatusRow(statuses, me).Some? ==>
      SingleStatusRoute(MyStatusRow(statuses, me).value.userId) == SingleStatusRoute(me)
    ensures forall u :: u in UniqueUsers(statuses, me) && me.Some? && u.userId.Some? ==>
      SingleStatusRoute(u.userId) != SingleStatusRoute(me)
  {
    forall u | u in UniqueUsers(statuses, me) && me.Some? && u.userId.Some?
      ensures SingleStatusRoute(u.userId) != SingleStatusRoute(me)
    {
      SingleStatusRouteInjective(u.userId, me);
    }
  }
}

=== FILE: viewmodel_state.dfy ===
/** The observable state of the chat view model, the writes it issues to the
    document database, and its single error path `handleException`.

    Remote calls are not made here: each operation receives the result the
    backend delivered (`Remote`) and returns the state after all of its
    callbacks have run, together with the writes it issued (`Step`). */
module ViewModelState {
  import opened Kotlin
  import opened Events
  import opened DataTypes

  /** A failure reported by the backend, reduced to its localized message. */
  datatype Exception = Exception(localizedMessage: Option<string>)

  /** The outcome of a one-shot remote call. */
  datatype Remote<T> = Done(value: T) | Failed(error: Exception)

  /** A stage-two status query: the cutoff it was opened with and the
      author ids it admits. */
  datatype StatusQuery = StatusQuery(cutoff: int, connections: seq<Option<string>>)

  /** The view model's state. The listener lists record every snapshot
      listener ever registered; the code never removes one. */
  datatype VmState = VmState(
    inProgress: bool,
    popupNotification: Option<Event<string>>,
    userData: Option<UserData>,
    signedIn: bool,
    chats: seq<ChatData>,
    chatMessages: seq<Message>,
    status: seq<Status>,
    // uid watched by each profile listener (`getUserData`)
    profileListeners: seq<string>,
    // user id each chat-list listener filters on (`populateChats`)
    chatListListeners: seq<Option<string>>,
    // chat id of each message listener (`populateChat`)
    messageListeners: seq<string>,
    // index into `messageListeners` of the listener the view model still references
    currentChatMessagesListener: Option<nat>,
    // cutoff captured by each stage-one status listener (`populateStatuses`)
    statusFeeds: seq<int>,
    // every stage-two status query opened from a stage-one snapshot
    statusQueries: seq<StatusQuery>)

  /** A document write issued by the view model. */
  datatype Write =
    | SetUser(uid: string, user: UserData)
    | UpdateUser(uid: string, fields: map<string, FieldValue>)
    | SetChat(chatId: string, chat: ChatData)

  /** The state after an operation and the writes it issued, in order. */
  datatype Step = Step(state: VmState, writes: seq<Write>)

  /** The profile a profile write leaves in the database, when the write
      alone determines it: a set stores its record; an update whose map
      holds every profile field (as the `toMap` maps this view model sends
      do) overwrites them all, so what was stored before does not matter.
      An update with fields missing yields None here. */
  function WrittenProfile(w: Write): Option<UserData>
  {
    match w
    case SetUser(_, u) => Some(u)
    case UpdateUser(_, fields) => FromMap(fields)
    case SetChat(_, _) => None
  }

  /** `userData.value?.<field>` */
  function MyField(st: VmState, field: UserData -> Option<string>): Option<string>
  {
    if st.userData.Some? then field(st.userData.value) else None
  }

  function MyUserId(st: VmState): Option<string>
  {
    MyField(st, (u: UserData) => u.userId)
  }

  function MyNumber(st: VmState): Option<string>
  {
    MyField(st, (u: UserData) => u.number)
  }

  /** `exception?.localizedMessage ?: ""` */
  function ErrorMsg(ex: Option<Exception>): string
  {
    if ex.Some? && ex.value.localizedMessage.Some? then ex.value.localizedMessage.value else ""
  }

  /** The default `customMessage` of `handleException`: a single blank. */
  const DefaultCustomMessage: string := " "

  /** The text `handleException` publishes: the error message alone when
      the custom message is empty, otherwise the custom message, ": " and
      the error message. */
  function ErrorMessage(ex: Option<Exception>, customMessage: string): (m: string)
    ensures customMessage == "" ==> m == ErrorMsg(ex)
    ensures customMessage != "" ==>
      && |m| == |customMessage| + 2 + |ErrorMsg(ex)|
      && m[..|customMessage|] == customMessage
      && m[|customMessage|..|customMessage| + 2] == ": "
      && m[|customMessage| + 2..] == ErrorMsg(ex)
    ensures m == "" <==> customMessage == "" && ErrorMsg(ex) == ""
    ensures customMessage != "" && ErrorMsg(ex) == "" ==> m == customMessage + ": "
  {
    var errorMsg := ErrorMsg(ex);
    if customMessage == "" then errorMsg
    else
      assert errorMsg == "" ==> customMessage + ": " + errorMsg == customMessage + ": ";
      customMessage + ": " + errorMsg
  }

  /** With the default custom message the text is never empty. */
  lemma DefaultMessageIsNeverEmpty(ex: Option<Exception>)
    ensures ErrorMessage(ex, DefaultCustomMessage) == " : " + ErrorMsg(ex)
    ensures ErrorMessage(ex, DefaultCustomMessage) != ""
  {
  }

  /** The state publishes `msg` as a fresh, not yet shown notification. */
  predicate Announces(st: VmState, msg: string)
  {
    st.popupNotification == Some(New(msg))
  }

  /** `handleException`: publishes a fresh event with the formatted text,
      clears the progress flag and changes nothing else. */
  function HandleException(st: VmState, ex: Option<Exception>, customMessage: string): (r: VmState)
    ensures Announces(r, ErrorMessage(ex, customMessage))
    ensures !r.inProgress
    ensures r.(popupNotification := st.popupNotification, inProgress := st.inProgress) == st
  {
    st.(popupNotification := Some(New(ErrorMessage(ex, customMessage))), inProgress := false)
  }

  /** Reporting the same failure twice leaves the same state as reporting
      it once, provided nothing reads the notice between the two reports.
      The states are compared as values: each report in the code stores a
      new event object, so a notice read after the first report is shown
      again by the second. */
  lemma HandleExceptionTwice(st: VmState, ex: Option<Exception>, customMessage: string)
    ensures HandleException(HandleException(st, ex, customMessage), ex, customMessage)
         == HandleException(st, ex, customMessage)
  {
  }

  /** `getUserData(uid)`: raises the progress flag and registers a profile
      listener for `uid`. */
  function GetUserData(st: VmState, uid: string): (r: VmState)
    ensures r.inProgress
    ensures r.profileListeners == st.profileListeners + [uid]
    ensures r.(inProgress := st.inProgress, profileListeners := st.profileListeners) == st
  {
    st.(inProgress := true, profileListeners := st.profileListeners + [uid])
  }
}
